=== FILE: README.md ===
# Results panel protocol and HTML table import, modelled in Dafny

This project models three pieces of jamovi:

- **Address codec** (`client/common/utils/addresses.js`). A result is named by a path of segments. `flatten` joins the segments with `/`. `unflatten` splits the string back with the global regular expression `/"[^"]+"|([^/]+)/g`: a quoted run is kept whole, with its quotes and any `/` inside it, and empty segments disappear. Module `Addresses` (`addresses.dfy`) states the scanner behind that regular expression as a recursive function. It proves:
  - exactly when `unflatten` returns `null`;
  - that decoding only ever drops separators;
  - the round trip for addresses whose segments are plain or quoted.
- **HTML table import** (`server/jamovi/server/utils/htmlparser.py`). This is a callback parser over the standard library's tokenizer. It decides from the first recognised tag whether the document is a table or a paragraph. It then gathers rows and cells, writing a `None` placeholder for each extra column of a `colspan`. `close` builds a column-major grid of stripped, integer-parsed values. Module `HtmlTables` (`htmlparser.dfy`) has two layers:
  - pure step functions over a `ParserState` value, used by the lemmas about whole callback sequences;
  - the class `Parser`, whose methods update fields in place, each proved to perform the matching step.
- **Results panel controller** (`client/resultsview/main.js`). This is the embedded panel's side of the message protocol with the host window:
  - message dispatch;
  - the focus reference counter behind `annotationFocus`/`annotationLostFocus`;
  - the selection and edit-state classes;
  - menu selection and the selection overlay;
  - the `getcontent` export chain;
  - `getParam`;
  - the size report.

  Module `ResultsView` (`resultsview.dfy`) has the class `Main`. In it, `postMessage` appends to an `outbox` sequence, and the renderer and exporter are functions given to the constructor. A handler that throws in JavaScript returns `Thrown`.

`options.dfy` holds the `Option` type shared by all three.

The model follows the code as written, including where it departs from what the panel protocol is meant to guarantee:

- An image node in rich mode is still exported as html, unless it is also a syntax node (`ResultsView.ImageNodeInRichMode`).
- A lost-focus event at count 0 throws only after decrementing, so the count stays at -1.
- An undecided HTML document with no text leaves `result()` as `None`: that branch of `close` assigns the misspelt attribute `_results`. This is modelled as the field `strayResults`.
- The constructor sets `_span`, not `_current_span`, so the current span starts unset (`None`).

## Model

| member | source | states |
|---|---|---|
| Addresses.Flatten | client/common/utils/addresses.js:6-8 | the empty address joins to the empty string; otherwise the length is the segment lengths plus one separator between each pair, and the string starts with the first segment |
| Addresses.Tokens | client/common/utils/addresses.js:12 | every match of the global regular expression is non-empty |
| Addresses.Unflatten | client/common/utils/addresses.js:10-13 | a non-null result is a non-empty list of non-empty segments |
| Addresses.TokensEmpty | client/common/utils/addresses.js:12 | the expression matches nothing exactly when the string consists only of `/` |
| Addresses.UnflattenNull | client/common/utils/addresses.js:10-13 | `unflatten` returns null exactly for strings made only of `/`, including the empty string |
| Addresses.UnflattenFlattenEmpty | client/common/utils/addresses.js:6-13 | decoding the encoded empty address gives null, not the empty address |
| Addresses.TokensSlash | client/common/utils/addresses.js:12 | a leading separator yields no segment |
| Addresses.QuotedTokenWhole | client/common/utils/addresses.js:12 | a quoted run of non-quote characters is one segment, quotes included, even when it holds `/` |
| Addresses.QuotedThenPlain | client/common/utils/addresses.js:12 | a quoted segment then a plain one decode to exactly those two segments, whatever the quoted text holds |
| Addresses.RunWithout | client/common/utils/addresses.js:12 | the run holds no stop character and ends at the first one, or at the end of the string |
| Addresses.UnquotedToken | client/common/utils/addresses.js:12 | a run without `/` that ends at a separator or the end is one segment, unless it starts a closed quoted match; an unclosed quote is an ordinary character |
| Addresses.ExampleQuotedSeparator | client/common/utils/addresses.js:12 | `"a/b"/c` decodes to `"a/b"` and `c` |
| Addresses.ExampleQuotesInsideToken | client/common/utils/addresses.js:12 | `a"b/c"` decodes to `a"b` and `c"`: a quote that does not start a match is an ordinary character |
| Addresses.ExampleUnclosedQuote | client/common/utils/addresses.js:12 | `"a/b` decodes to `"a` and `b`: with no closing quote the `/` separates |
| Addresses.ExampleEmptySegmentsVanish | client/common/utils/addresses.js:12 | `//a//b/` decodes to `a`, `b` |
| Addresses.ExampleUnquotedSeparatorSplits | client/common/utils/addresses.js:6-13 | a segment holding an unquoted `/` does not survive the round trip |
| Addresses.SlashDeletionPrefix | client/common/utils/addresses.js:12 | deleting separators commutes with a common prefix |
| Addresses.TokensOnlyDropSlashes | client/common/utils/addresses.js:12 | concatenating the decoded segments gives the input with some `/` removed and nothing else changed |
| Addresses.SegmentToken | client/common/utils/addresses.js:12 | a plain or quoted segment followed by a separator or the end decodes to itself |
| Addresses.RoundTrip | client/common/utils/addresses.js:6-13 | `unflatten(flatten(a)) == a` for every non-empty address of plain or quoted segments |
| Addresses.RoundTripTokens | client/common/utils/addresses.js:6-13 | the matches of a joined well-formed address are its segments |
| HtmlTables.Strip | server/jamovi/server/utils/htmlparser.py:46 | `str.strip`: never longer, empty exactly for all-whitespace input, and no whitespace at either end |
| HtmlTables.LeadingSpaceExact | server/jamovi/server/utils/htmlparser.py:46 | the leading-whitespace count is fixed by where the first non-whitespace character is |
| HtmlTables.TrailingSpaceExact | server/jamovi/server/utils/htmlparser.py:46 | the trailing-whitespace count is fixed by where the last non-whitespace character is |
| HtmlTables.StripBetween | server/jamovi/server/utils/htmlparser.py:46 | stripping whitespace-only borders returns the unpadded middle |
| HtmlTables.NormaliseIsOnePass | server/jamovi/server/utils/htmlparser.py:52-54 | the three `replace` calls, in order, equal one pass turning every CR/LF character into a space |
| HtmlTables.NormalisedHasNoLineBreak | server/jamovi/server/utils/htmlparser.py:62-64 | the normalised text holds no CR and no LF |
| HtmlTables.LineBreaksToSpaces | server/jamovi/server/utils/htmlparser.py:52-54 | the one-pass reference leaves no CR or LF |
| HtmlTables.IntOf | server/jamovi/server/utils/htmlparser.py:137 | an accepted string is never all whitespace, and holds none of the separators U+001C-U+001F, which `str.isspace` accepts but `int` does not skip |
| HtmlTables.NatDigitsValue | server/jamovi/server/utils/htmlparser.py:137 | the decimal digits of `n` read back as `n` |
| HtmlTables.IntOfDecimal | server/jamovi/server/utils/htmlparser.py:137 | `int(str(n)) == n` for every integer, negative ones included (the interpreter's digit limit is not modelled) |
| HtmlTables.NoBorderSpace | server/jamovi/server/utils/htmlparser.py:46 | a string with no whitespace at either end is its own strip |
| HtmlTables.Parse | server/jamovi/server/utils/htmlparser.py:135-143 | the value is an integer exactly when `int` accepts the text, and then it is the integer `int` returns; otherwise it is the text unchanged |
| HtmlTables.SpanOfFirstColspan | server/jamovi/server/utils/htmlparser.py:113-120 | the span is the value of the first `colspan` attribute; later ones are ignored |
| HtmlTables.Placeholders | server/jamovi/server/utils/htmlparser.py:131-132 | `span - 1` placeholders (none for a span below 2), all `None` |
| HtmlTables.FinaliseCellStep | server/jamovi/server/utils/htmlparser.py:128-133 | with a cell open, its text and then `span - 1` placeholders are appended to the current row, the finished rows are untouched and the cell is closed; with none open, nothing changes |
| HtmlTables.AddCellStep | server/jamovi/server/utils/htmlparser.py:122-126 | opens an empty cell with the span; an open row is kept, otherwise an empty one is opened; rows, kind and `_just_data` are untouched |
| HtmlTables.StartTagStep | server/jamovi/server/utils/htmlparser.py:77-96 | a start tag keeps the parser invariant (undecided means nothing gathered, a paragraph has an open cell, an open table cell has a row and a span) |
| HtmlTables.EndTagStep | server/jamovi/server/utils/htmlparser.py:98-101 | an end tag keeps the parser invariant; in a table, a `td`/`th` end tag moves an open cell's text and placeholders into the current row and closes it; a cell end tag with no cell open changes nothing, and so does any other end tag, or any end tag outside a table |
| HtmlTables.StartEndTagStep | server/jamovi/server/utils/htmlparser.py:103-108 | a self-closing `td`/`th` in a table appends an empty cell and `span - 1` placeholders to the current row (a fresh one if none is open), discards the text of a still-open cell and leaves no cell open; any other self-closing tag, and any outside a table, changes nothing; the parser invariant is kept |
| HtmlTables.DataStep | server/jamovi/server/utils/htmlparser.py:71-75 | text keeps the parser invariant |
| HtmlTables.Step | server/jamovi/server/utils/htmlparser.py:77-84 | the document kind is set once, by the first table or paragraph start tag, and never changes |
| HtmlTables.Run | server/jamovi/server/utils/htmlparser.py:71-108 | any callback sequence keeps the parser invariant |
| HtmlTables.RunAppend | server/jamovi/server/utils/htmlparser.py:71-108 | feeding `a + b` is feeding `a`, then `b` |
| HtmlTables.KindOfRun | server/jamovi/server/utils/htmlparser.py:77-84 | after a run, the kind is the one already decided, else the kind of the first recognised start tag |
| HtmlTables.ParaCollects | server/jamovi/server/utils/htmlparser.py:71-75 | in a paragraph, all later text is appended to the cell, whatever tags surround it, and `_just_data` is untouched |
| HtmlTables.UnknownCollects | server/jamovi/server/utils/htmlparser.py:71-75 | while undecided, text accumulates in `_just_data` and nothing else changes |
| HtmlTables.ParaDropsLeadingText | server/jamovi/server/utils/htmlparser.py:71-84 | text before the first `p`/`span` stays in `_just_data`; the paragraph holds only the text after it |
| HtmlTables.StepExtends | server/jamovi/server/utils/htmlparser.py:86-108 | a callback never removes or rewrites a gathered row or cell |
| HtmlTables.RunExtends | server/jamovi/server/utils/htmlparser.py:86-108 | over any run, the rows only grow |
| HtmlTables.PlaceholderStays | server/jamovi/server/utils/htmlparser.py:86-108 | a placeholder in the pending rows stays there over any run |
| HtmlTables.ColspanLeavesPlaceholder | server/jamovi/server/utils/htmlparser.py:103-132 | a self-closing table cell with colspan 2 or more leaves a `None` placeholder that `close` will meet, whatever follows |
| HtmlTables.ColspanCellLeavesPlaceholder | server/jamovi/server/utils/htmlparser.py:94-132 | so does a `td`/`th` start tag with colspan 2 or more whose cell is closed by a cell end tag, whatever text and other tags come between and whatever follows |
| HtmlTables.TableStrayText | server/jamovi/server/utils/htmlparser.py:71-75 | in a table with no open cell, text (amid tags other than `tr`, `td`, `th`) goes only to `_just_data`, which `close` ignores for a table: the pending rows do not change |
| HtmlTables.TableCellCollects | server/jamovi/server/utils/htmlparser.py:71-75 | in a table with an open cell, text (amid tags other than `tr`, `td`, `th`) is appended to that cell and nothing else changes |
| HtmlTables.CellReachesRow | server/jamovi/server/utils/htmlparser.py:94-133 | a `td`/`th` element closed by a cell end tag, with only text and other tags between, appends its text and `span - 1` placeholders to the current row (a fresh one if none was open) and leaves no cell open |
| HtmlTables.TrSavesOpenCell | server/jamovi/server/utils/htmlparser.py:86-92 | a `tr` start tag in a table finalises an open cell into the current row, pushes that row and opens an empty one |
| HtmlTables.CellStartDropsOpenCell | server/jamovi/server/utils/htmlparser.py:94-126 | a `td`/`th` start tag while a cell is open replaces it by an empty cell: the open cell's text never reaches the rows |
| HtmlTables.MaxLen | server/jamovi/server/utils/htmlparser.py:33-36 | `n_cols` bounds every row, is 0 with no rows, and is attained by some row |
| HtmlTables.TableGrid | server/jamovi/server/utils/htmlparser.py:38-48 | `n_cols` columns, each with one entry per row |
| HtmlTables.TableGridTransposes | server/jamovi/server/utils/htmlparser.py:38-48 | the grid has one column per position of the longest row and one entry per row; an entry is set exactly where the row has a cell, to its stripped, parsed text |
| HtmlTables.EmptyGrid | server/jamovi/server/utils/htmlparser.py:38-40 | `n_cols` columns of `n_rows` entries each |
| HtmlTables.FillStart | server/jamovi/server/utils/htmlparser.py:38-42 | the preallocated grid is the state before the first row |
| HtmlTables.FillCell | server/jamovi/server/utils/htmlparser.py:44-48 | writing one cell extends the filled region by one |
| HtmlTables.FillRowDone | server/jamovi/server/utils/htmlparser.py:42-48 | a finished row moves the filled region to the next row |
| HtmlTables.FillDone | server/jamovi/server/utils/htmlparser.py:38-48 | a grid filled through all rows is the transposed grid |
| HtmlTables.TextGrid | server/jamovi/server/utils/htmlparser.py:50-67 | the text result is a single cell |
| HtmlTables.Parser.constructor | server/jamovi/server/utils/htmlparser.py:13-21 | a fresh parser is undecided, with no rows, no cell, no text and no result |
| HtmlTables.Parser.Result | server/jamovi/server/utils/htmlparser.py:23-24 | `result()` returns the stored result, unset until `close` stores one |
| HtmlTables.Parser.HandleData | server/jamovi/server/utils/htmlparser.py:71-75 | performs the text step in place |
| HtmlTables.Parser.HandleStartTag | server/jamovi/server/utils/htmlparser.py:77-96 | performs the start-tag step in place |
| HtmlTables.Parser.HandleEndTag | server/jamovi/server/utils/htmlparser.py:98-101 | performs the end-tag step in place |
| HtmlTables.Parser.HandleStartEndTag | server/jamovi/server/utils/htmlparser.py:103-108 | performs the self-closing-tag step in place |
| HtmlTables.Parser.Feed | server/jamovi/server/utils/htmlparser.py:71-108 | feeding callbacks one by one reaches the state of the pure run |
| HtmlTables.Parser.GetSpan | server/jamovi/server/utils/htmlparser.py:113-120 | 1 without a `colspan`; otherwise `int` of the first one's value, or 1 when `int` raises (a missing value or non-integer text) |
| HtmlTables.Parser.BuildGrid | server/jamovi/server/utils/htmlparser.py:33-48 | raises exactly when some row holds a placeholder; otherwise the result is the transposed grid, with `n_cols` columns either way |
| HtmlTables.Parser.FillRow | server/jamovi/server/utils/htmlparser.py:43-48 | raises exactly when the row holds a placeholder; otherwise every cell of the row is in place, stripped and parsed, and nothing else changes |
| HtmlTables.Parser.AddCell | server/jamovi/server/utils/htmlparser.py:122-126 | opens a row if needed, then an empty cell with the span |
| HtmlTables.Parser.FinaliseCell | server/jamovi/server/utils/htmlparser.py:128-133 | appends the cell's text and `span - 1` placeholders, then closes the cell |
| HtmlTables.Parser.Close | server/jamovi/server/utils/htmlparser.py:26-69 | table: pushes the pending row and raises exactly when a placeholder is present, else stores the grid; paragraph: the normalised cell; undecided: the normalised text, or, with no text, sets `_results` and leaves the result unset |
| HtmlTables.ParseEvents | server/jamovi/server/utils/htmlparser.py:13-108 | end to end: an empty undecided document gives `None`; undecided text gives one cell; a paragraph gives one column; a table gives the transposed grid unless a placeholder makes it raise |
| ResultsView.ParamKey | client/resultsview/main.js:48 | the key starts with `results/` and ends with `/` and the name |
| ResultsView.FlattenAppend | client/common/utils/addresses.js:7 | joining two non-empty paths is joining their joins with `/` |
| ResultsView.ParamKeyDecodes | client/resultsview/main.js:47-51 | the option key decodes to `results`, the address, the name; for the empty address, the doubled separator in `results//name` is dropped |
| ResultsView.ParamKeyEmptyAddress | client/resultsview/main.js:48 | the key for the empty address decodes to `results` and the name |
| ResultsView.ParamKeyNonEmptyAddress | client/resultsview/main.js:48 | for a non-empty address, the key decodes back to `results`, the address and the name |
| ResultsView.ResultsPrefixWellFormed | client/resultsview/main.js:48 | prefixing `results` keeps a path of plain or quoted segments well formed |
| ResultsView.ParamKeyFlattens | client/resultsview/main.js:48 | for a non-empty address, the key is the join of `results`, the address and the name |
| ResultsView.ApplySelection | client/resultsview/main.js:122-135 | `no-analysis-selected` is on exactly for `null`; `null` leaves `analysis-selected` as it was; anything else sets it to its truthiness; the edit classes are untouched |
| ResultsView.ApplyAnnotationStates | client/resultsview/main.js:273-295 | after `_updateAnnotationStates`, the classes show the stored focus, edit and selection state, whatever they held; a `null` selection leaves `analysis-selected` as it was |
| ResultsView.SelectionKeepsReflects | client/resultsview/main.js:122-135 | a `selected` message keeps the classes in step with the stored state |
| ResultsView.FocusEnter | client/resultsview/main.js:243-247 | the count goes up by one; a notification, `annotationFocus`, exactly when it becomes 1; never throws |
| ResultsView.FocusLeave | client/resultsview/main.js:249-255 | the count goes down by one; a notification, `annotationLostFocus`, exactly when it becomes 0; throws exactly when it was 0 or less |
| ResultsView.FocusRunBalanced | client/resultsview/main.js:243-255 | from a balanced count, any run of editing/lost-focus events stays balanced, or throws at count 0 with the count left at -1 |
| ResultsView.FocusNotesAlternate | client/resultsview/main.js:243-255 | starting at 0, the host sees focus and lost-focus alternating, starting with focus; the count is positive exactly when the last one was focus |
| ResultsView.FocusNestedExample | client/resultsview/main.js:243-255 | enter, enter, leave, leave posts one focus and one lost-focus |
| ResultsView.FocusUnderflowExample | client/resultsview/main.js:243-255 | enter, leave, leave throws on the second leave, with the count at -1 |
| ResultsView.SelectorBox | client/resultsview/main.js:349-363 | the overlay is the root's exact box, or a non-root box widened by 12 on each side |
| ResultsView.SelectorSurroundsNode | client/resultsview/main.js:349-363 | the overlay covers the node, keeps its vertical extent, and is centred on it horizontally |
| ResultsView.Resolve | client/resultsview/main.js:340-345 | the empty address is the root; any other address resolves exactly when the lookup knows it |
| ResultsView.ClearActive | client/resultsview/main.js:330-333 | after clearing, no item is active; if one was, the overlay keeps its box and gets opacity 0; if none was, nothing changes |
| ResultsView.MenuStep | client/resultsview/main.js:328-366 | a null address only clears the selection; otherwise the active item becomes the root for `[]` and the looked-up item (`undefined` when missing) for any other address; only `activated` changes the overlay; activating a resolvable item shows the overlay at its box with opacity 1; it throws exactly when a non-root address arrives before the first render, or when `activated` finds no item, and a throw leaves the overlay as clearing left it |
| ResultsView.MenuRootActivation | client/resultsview/main.js:340-363 | activating the empty address covers the results container exactly |
| ResultsView.Requested | client/resultsview/main.js:164-174 | the flags `getcontent` computes for a node |
| ResultsView.ImageNodeInRichMode | client/resultsview/main.js:164-199 | an image node in rich mode is exported as an image, then as html, never as text |
| ResultsView.ExportCalls | client/resultsview/main.js:178-199 | each export is of the node; text, image and html are each exported exactly when requested, at most once, in that order |
| ResultsView.Main.constructor | client/resultsview/main.js:21-33 | no host, no definition, nothing rendered, nothing active, focus count 0, edit flags off, selection never set |
| ResultsView.Main.GetParam | client/resultsview/main.js:47-51 | returns the option stored under the key, and `undefined` exactly when the key is absent |
| ResultsView.Main.ReallyNotifyResize | client/resultsview/main.js:75-82 | posts the container's size plus 40 wide and 25 high |
| ResultsView.Main.OnMouse | client/resultsview/main.js:368-411 | a mouse event is posted only when the host is known |
| ResultsView.Main.OnAnnotationEditing | client/resultsview/main.js:243-247 | increments the count; posts `annotationFocus` exactly when it becomes 1 |
| ResultsView.Main.OnAnnotationLostFocus | client/resultsview/main.js:249-255 | decrements the count; posts `annotationLostFocus` exactly when it becomes 0; throws exactly when it goes negative |
| ResultsView.Main.OnAnnotationFormats | client/resultsview/main.js:257-259 | forwards the formats to the host |
| ResultsView.Main.OnAnnotationChanged | client/resultsview/main.js:261-263 | forwards the change to the host |
| ResultsView.Main.Render | client/resultsview/main.js:216-271 | a fresh reference table, container, items and overlay; the container's classes show the stored state; the focus count and the active item are kept |
| ResultsView.Main.HandleAnnotationEvent | client/resultsview/main.js:297-326 | `editState` and `editFocused` store the flag and set exactly the matching class on the container when it exists; other events change nothing; no other field changes |
| ResultsView.Main.ClearSelection | client/resultsview/main.js:330-333 | performs the clearing step in place and changes nothing else |
| ResultsView.Main.HandleMenuEvent | client/resultsview/main.js:328-366 | performs the menu step in place and changes nothing else |
| ResultsView.Main.SendMenuRequest | client/resultsview/main.js:84-92 | the first entry is retyped `Analysis` in place; the request with all entries goes to the host; then the last entry's address is activated; with no entries it throws and nothing changes |
| ResultsView.Main.ContentFlags | client/resultsview/main.js:164-174 | html exactly in rich mode for a non-syntax node; text exactly for a non-image node; image exactly for an image node |
| ResultsView.Main.ContentOf | client/resultsview/main.js:176-202 | a key is present exactly for a requested export with a truthy result, and holds that result |
| ResultsView.Main.ExportContent | client/resultsview/main.js:176-206 | runs exactly the requested exports, in order, and keeps only the truthy results |
| ResultsView.Main.HandleGetContent | client/resultsview/main.js:155-207 | throws, changing nothing, exactly when nothing is rendered or the address resolves to nothing; otherwise the requested exports run and one reply with the exported content, echoing the address, is posted; nothing else changes |
| ResultsView.Main.ReceiveResults | client/resultsview/main.js:112-117 | stores the definition with the root forced `visible` 2 and renders it: fresh items, overlay and reference table, and classes that show the stored state; nothing else changes |
| ResultsView.Main.ReceiveRefTable | client/resultsview/main.js:118-121 | sets up an existing reference table again; before the first render nothing changes |
| ResultsView.Main.ReceiveSelected | client/resultsview/main.js:122-135 | stores the tri-state selection and applies it to the container's classes when the container exists; nothing else changes |
| ResultsView.Main.ReceiveClick | client/resultsview/main.js:136-144 | throws exactly when the point is on the page body before the first render, when there is no results container to redirect to |
| ResultsView.Main.HandleMessage | client/resultsview/main.js:103-214 | from the panel's own window nothing changes; otherwise the source becomes the host and, by message type, the new state is given in full: `results` as `ReceiveResults`, `reftablechanged` as `ReceiveRefTable`, `selected` as `ReceiveSelected`, `getcontent` as `HandleGetContent`, `menuEvent` as the menu step, `annotationEvent` as `HandleAnnotationEvent`; `click` changes nothing and throws as `ReceiveClick`; `addNote` and unknown types change nothing |

## Left out

- The HTML tokenizer (`html.parser.HTMLParser` itself) is not part of this model. The parser is driven by a sequence of callback events. Character references, comments and declarations (`unknown_decl` ignores them) are not modelled.
- HtmlTables.Parser.Close does not model text the tokenizer may still hold back at `close`. This `close` never calls the base class's `close`, so that text is never flushed.
- HtmlTables.Parse models the `int` branch for ASCII digits, an optional sign and surrounding whitespace. The `float` fallback is not modelled, and neither are `int`'s digit-group underscores and non-ASCII digits. Text that only `float` would accept stays text in the model.
- HtmlTables.IntOf does not model the limit of 4300 decimal digits that CPython 3.11, and the 2022 security releases of 3.7 to 3.10, put on `int` of a string. Past it `int` raises, so `_parse` falls back to `float` (giving `inf`) and `_get_span` falls back to 1; the model returns the exact integer in both places. The interpreter version is not fixed by the code, so the model follows the unlimited conversion. For the same reason HtmlTables.IntOfDecimal holds only where `str(n)` itself does not raise.
- HtmlTables.Parser.Close models a raise as a returned flag. The grid it returns then holds the cells filled before the raise, and nothing about those cells is stated beyond the number of columns.
- ResultsView.Main.HandleMessage does not model the `contextmenu` event that `click` triggers on the element under the point, nor `addNote` focusing an annotation control; both are DOM work. The hit test of `click` is a parameter: whether the point is on the page body.
- ResultsView.Main.HandleAnnotationEvent does not model forwarding a toolbar `action` to the focused annotation control, which is DOM work.
- ResultsView.Main.HandleGetContent resolves the address through the same lookup as the menu. The code walks `data-name` attributes in the page instead. The export chain is modelled as running to completion within the handler. Its asynchrony, and the chance that a new `results` message or a new host arrives before the reply, are not modelled.
- The 50 ms debounce and the element-resize listener in front of `_reallyNotifyResize` are not modelled. The size arrives as parameters.
- `setOption`, `setParam` and `openUrl` are not modelled. They only forward their arguments to the host.
- The document-level `contextmenu` relay and `Annotation.detach` are not modelled. Neither is the rendering of items, which `createItem` stands for as a function.
- Window identity is a number, and `postMessage` appends to `outbox` without a target origin.

=== FILE: addresses.dfy ===
/**
 * The address codec of the results panel: a tree address (the names of the
 * nodes on the path from the results root) travels as one string whose
 * segments are separated by '/'. Encoding is a plain join; decoding is a
 * single global regular-expression match, `"[^"]+"|[^/]+`, restated here as
 * a left-to-right scanner over the string.
 */
module Addresses {

  import opened Options

  type Address = seq<string>

  /** Sum of the segment lengths. */
  function TotalLength(a: Address): nat
  {
    if a == [] then 0 else |a[0]| + TotalLength(a[1..])
  }

  /** Joins the segments with '/'; nothing is escaped or quoted. */
  function Flatten(a: Address): (r: string)
    ensures a == [] ==> r == ""
    ensures a != [] ==> |r| == TotalLength(a) + |a| - 1
    ensures a != [] ==> r[..|a[0]|] == a[0]
  {
    if a == [] then ""
    else if |a| == 1 then a[0]
    else a[0] + "/" + Flatten(a[1..])
  }

  // ---------------------------------------------------------------------
  // The scanner

  /** Length of the longest prefix of `s` that does not hold `stop`. */
  function RunWithout(s: string, stop: char): (n: nat)
    ensures n <= |s|
    ensures forall i :: 0 <= i < n ==> s[i] != stop
    ensures n < |s| ==> s[n] == stop
  {
    if s == [] || s[0] == stop then 0 else 1 + RunWithout(s[1..], stop)
  }

  /**
   * Length of the first alternative `"[^"]+"` matched at the start of `s`,
   * or 0 when it does not match there: an opening quote, at least one
   * non-quote character and a closing quote.
   */
  function QuotedLen(s: string): (n: nat)
    ensures n == 0 || (3 <= n <= |s| && s[0] == '"' && s[n - 1] == '"')
    ensures n > 0 ==> forall i :: 1 <= i < n - 1 ==> s[i] != '"'
  {
    if |s| >= 1 && s[0] == '"' then
      var k := RunWithout(s[1..], '"');
      if k >= 1 && 1 + k < |s| then k + 2 else 0
    else 0
  }

  /**
   * Length of the token matched at the start of `s`, which does not begin
   * with '/': the quoted alternative when it matches, otherwise the maximal
   * run of non-'/' characters.
   */
  function TokenLen(s: string): (n: nat)
    requires s != [] && s[0] != '/'
    ensures 1 <= n <= |s|
  {
    if QuotedLen(s) > 0 then QuotedLen(s) else RunWithout(s, '/')
  }

  /** All the matches of the global regular expression, left to right. */
  function Tokens(s: string): (r: seq<string>)
    ensures forall i :: 0 <= i < |r| ==> r[i] != []
    decreases |s|
  {
    if s == [] then []
    else if s[0] == '/' then Tokens(s[1..])
    else
      var n := TokenLen(s);
      [s[..n]] + Tokens(s[n..])
  }

  /** `String.prototype.match` with the global flag: null when nothing matches. */
  function Unflatten(s: string): (r: Option<seq<string>>)
    ensures r.Some? ==> r.value != []
    ensures r.Some? ==> forall i :: 0 <= i < |r.value| ==> r.value[i] != []
  {
    var t := Tokens(s);
    if t == [] then None else Some(t)
  }

  // ---------------------------------------------------------------------
  // What the decoder returns

  predicate AllSlashes(s: string)
  {
    forall i :: 0 <= i < |s| ==> s[i] == '/'
  }

  /** `Tokens` finds nothing exactly in a string made only of '/'. */
  lemma {:induction false} TokensEmpty(s: string)
    ensures Tokens(s) == [] <==> AllSlashes(s)
    decreases |s|
  {
    if s != [] {
      if s[0] == '/' {
        TokensEmpty(s[1..]);
        assert AllSlashes(s) <==> AllSlashes(s[1..]) by {
          if AllSlashes(s[1..]) {
            forall i | 0 <= i < |s| ensures s[i] == '/' {
              if i > 0 { assert s[i] == s[1..][i - 1]; }
            }
          }
        }
      } else {
        assert !AllSlashes(s);
      }
    }
  }

  /** `unflatten` returns null for the empty string and for strings of '/' only, and only for those. */
  lemma UnflattenNull(s: string)
    ensures Unflatten(s) == None <==> AllSlashes(s)
  {
    TokensEmpty(s);
  }

  /** Decoding the encoding of the empty address gives null, not the empty address. */
  lemma UnflattenFlattenEmpty()
    ensures Unflatten(Flatten([])) == None
  {
    UnflattenNull("");
  }

  /** A separator is skipped without producing a segment. */
  lemma TokensSlash(rest: string)
    ensures Tokens("/" + rest) == Tokens(rest)
  {
    assert ("/" + rest)[1..] == rest;
  }

  /**
   * A quoted run at a token start is one token, quotes included, whatever
   * '/' characters it contains.
   */
  lemma QuotedTokenWhole(w: string, rest: string)
    requires w != [] && forall i :: 0 <= i < |w| ==> w[i] != '"'
    ensures Tokens("\"" + w + "\"" + rest) == ["\"" + w + "\""] + Tokens(rest)
  {
    var q := "\"" + w + "\"";
    var s := q + rest;
    assert s[1..] == w + "\"" + rest;
    var k := RunWithout(s[1..], '"');
    assert s[1..][|w|] == '"';
    assert forall i :: 0 <= i < |w| ==> s[1..][i] == w[i];
    assert k == |w|;
    assert QuotedLen(s) == |q|;
    assert TokenLen(s) == |q|;
    assert s[..|q|] == q;
    assert s[|q|..] == rest;
  }

  /**
   * A token that does not open a quoted run is the maximal run of non-'/'
   * characters, quotes included.
   */
  lemma UnquotedToken(t: string, rest: string)
    requires t != [] && (t[0] != '"' || QuotedLen(t + rest) == 0)
    requires forall i :: 0 <= i < |t| ==> t[i] != '/'
    requires rest == [] || rest[0] == '/'
    ensures Tokens(t + rest) == [t] + Tokens(rest)
  {
    var s := t + rest;
    assert s[0] == t[0];
    assert QuotedLen(s) == 0;
    var k := RunWithout(s, '/');
    assert forall i :: 0 <= i < |t| ==> s[i] == t[i];
    assert |t| < |s| ==> s[|t|] == '/';
    assert TokenLen(s) == |t|;
    assert s[..|t|] == t;
    assert s[|t|..] == rest;
  }

  /** A quote that is never closed starts an ordinary token, which ends at the next '/'. */
  lemma ExampleUnclosedQuote()
    ensures Unflatten("\"a/b") == Some(["\"a", "b"])
  {
    assert "\"a/b" == "\"a" + "/b";
    assert RunWithout("a/b", '"') == 3;
    assert QuotedLen("\"a/b") == 0;
    UnquotedToken("\"a", "/b");
    TokensSlash("b");
    UnquotedToken("b", "");
    assert "b" + "" == "b";
    assert Tokens("b") == ["b"] by {
      assert Tokens("") == [];
    }
    assert Tokens("\"a/b") == ["\"a"] + ["b"];
    assert ["\"a"] + ["b"] == ["\"a", "b"];
  }

  /** A quoted segment keeps its '/' and its quotes. */
  lemma ExampleQuotedSeparator()
    ensures Unflatten("\"a/b\"/c") == Some(["\"a/b\"", "c"])
  {
    QuotedThenPlain("a/b", "c");
    assert "\"a/b\"/c" == "\"" + "a/b" + "\"" + ("/" + "c");
    assert "\"" + "a/b" + "\"" == "\"a/b\"";
  }

  /** A quoted segment followed by a plain one decodes to both, whatever the quoted text holds. */
  lemma QuotedThenPlain(w: string, t: string)
    requires w != [] && forall i :: 0 <= i < |w| ==> w[i] != '"'
    requires Plain(t)
    ensures Unflatten("\"" + w + "\"" + ("/" + t)) == Some(["\"" + w + "\"", t])
  {
    QuotedTokenWhole(w, "/" + t);
    TokensSlash(t);
    UnquotedToken(t, "");
    assert t + "" == t;
    assert Tokens(t) == [t] by {
      assert Tokens("") == [];
    }
    assert Tokens("\"" + w + "\"" + ("/" + t)) == ["\"" + w + "\""] + [t];
    assert ["\"" + w + "\""] + [t] == ["\"" + w + "\"", t];
  }

  /** Quotes inside an unquoted token are ordinary characters. */
  lemma ExampleQuotesInsideToken()
    ensures Unflatten("a\"b/c\"") == Some(["a\"b", "c\""])
  {
    UnquotedToken("a\"b", "/c\"");
    assert "a\"b/c\"" == "a\"b" + "/c\"";
    TokensSlash("c\"");
    UnquotedToken("c\"", "");
    assert "c\"" + "" == "c\"";
    assert Tokens("c\"") == ["c\""];
    assert Tokens("a\"b/c\"") == ["a\"b", "c\""];
  }

  /** Leading, trailing and repeated separators produce no segment. */
  lemma ExampleEmptySegmentsVanish()
    ensures Unflatten("//a//b/") == Some(["a", "b"])
  {
    calc {
      Tokens("//a//b/");
      { assert "//a//b/" == "/" + "/a//b/"; TokensSlash("/a//b/"); }
      Tokens("/a//b/");
      { assert "/a//b/" == "/" + "a//b/"; TokensSlash("a//b/"); }
      Tokens("a//b/");
      { assert "a//b/" == "a" + "//b/"; UnquotedToken("a", "//b/"); }
      ["a"] + Tokens("//b/");
      { assert "//b/" == "/" + "/b/"; TokensSlash("/b/"); }
      ["a"] + Tokens("/b/");
      { assert "/b/" == "/" + "b/"; TokensSlash("b/"); }
      ["a"] + Tokens("b/");
      { assert "b/" == "b" + "/"; UnquotedToken("b", "/"); }
      ["a"] + (["b"] + Tokens("/"));
      { assert "/" == "/" + ""; TokensSlash(""); assert Tokens("") == []; }
      ["a"] + (["b"] + []);
      ["a", "b"];
    }
  }

  // ---------------------------------------------------------------------
  // Only separators are lost

  /** `t` is `s` with some '/' characters deleted and nothing else changed. */
  ghost predicate SlashDeletion(s: string, t: string)
    decreases |s|
  {
    if s == [] then t == []
    else
      || (t != [] && t[0] == s[0] && SlashDeletion(s[1..], t[1..]))
      || (s[0] == '/' && SlashDeletion(s[1..], t))
  }

  function Concat(ts: seq<string>): string
  {
    if ts == [] then "" else ts[0] + Concat(ts[1..])
  }

  /** Keeping a common prefix preserves a deletion. */
  lemma {:induction false} SlashDeletionPrefix(p: string, s: string, t: string)
    requires SlashDeletion(s, t)
    ensures SlashDeletion(p + s, p + t)
    decreases |p|
  {
    if p != [] {
      SlashDeletionPrefix(p[1..], s, t);
      assert (p + s)[1..] == p[1..] + s;
      assert (p + t)[1..] == p[1..] + t;
      assert (p + t)[0] == (p + s)[0] == p[0];
    } else {
      assert p + s == s && p + t == t;
    }
  }

  /**
   * Concatenating the segments gives back the input with some '/'
   * characters removed: no other character is dropped, duplicated or
   * reordered.
   */
  lemma {:induction false} TokensOnlyDropSlashes(s: string)
    ensures SlashDeletion(s, Concat(Tokens(s)))
    decreases |s|
  {
    if s == [] {
    } else if s[0] == '/' {
      TokensOnlyDropSlashes(s[1..]);
    } else {
      var n := TokenLen(s);
      TokensOnlyDropSlashes(s[n..]);
      assert Tokens(s) == [s[..n]] + Tokens(s[n..]);
      assert Concat(Tokens(s)) == s[..n] + Concat(Tokens(s[n..]));
      SlashDeletionPrefix(s[..n], s[n..], Concat(Tokens(s[n..])));
      assert s[..n] + s[n..] == s;
    }
  }

  // ---------------------------------------------------------------------
  // Round trip

  /** A segment that survives the join as one token when left unquoted. */
  predicate Plain(seg: string)
  {
    seg != [] && seg[0] != '"' && forall i :: 0 <= i < |seg| ==> seg[i] != '/'
  }

  /** A segment quoted by the caller: '"', non-empty quote-free text, '"'. */
  predicate Quoted(seg: string)
  {
    |seg| >= 3 && seg[0] == '"' && seg[|seg| - 1] == '"'
      && forall i :: 1 <= i < |seg| - 1 ==> seg[i] != '"'
  }

  predicate WellFormed(a: Address)
  {
    forall i :: 0 <= i < |a| ==> Plain(a[i]) || Quoted(a[i])
  }

  lemma SegmentToken(seg: string, rest: string)
    requires Plain(seg) || Quoted(seg)
    requires rest == [] || rest[0] == '/'
    ensures Tokens(seg + rest) == [seg] + Tokens(rest)
  {
    if Plain(seg) {
      UnquotedToken(seg, rest);
    } else {
      var w := seg[1..|seg| - 1];
      assert seg == "\"" + w + "\"";
      QuotedTokenWhole(w, rest);
    }
  }

  /**
   * `unflatten(flatten(a)) == a` for every non-empty address whose segments
   * are each plain (non-empty, no '/', not opening with '"') or quoted.
   */
  lemma {:induction false} RoundTrip(a: Address)
    requires a != [] && WellFormed(a)
    ensures Unflatten(Flatten(a)) == Some(a)
  {
    RoundTripTokens(a);
  }

  lemma {:induction false} RoundTripTokens(a: Address)
    requires WellFormed(a)
    ensures Tokens(Flatten(a)) == a
    decreases |a|
  {
    if a == [] {
    } else if |a| == 1 {
      SegmentToken(a[0], "");
      assert a[0] + "" == a[0];
      assert Tokens("") == [];
    } else {
      assert WellFormed(a[1..]) by {
        forall i | 0 <= i < |a[1..]| ensures Plain(a[1..][i]) || Quoted(a[1..][i]) {
          assert a[1..][i] == a[i + 1];
        }
      }
      RoundTripTokens(a[1..]);
      var rest := "/" + Flatten(a[1..]);
      assert Flatten(a) == a[0] + rest;
      SegmentToken(a[0], rest);
      TokensSlash(Flatten(a[1..]));
      assert [a[0]] + a[1..] == a;
    }
  }

  /** An unquoted segment holding '/' does not survive: the join is not escaped. */
  lemma ExampleUnquotedSeparatorSplits()
    ensures Unflatten(Flatten(["a/b"])) == Some(["a", "b"])
  {
    UnquotedToken("a", "/b");
    assert "a/b" == "a" + "/b";
    TokensSlash("b");
    UnquotedToken("b", "");
    assert "b" + "" == "b";
    assert Tokens("b") == ["b"];
    assert Tokens("a/b") == ["a", "b"];
  }
}

=== FILE: htmlparser.dfy ===
/**
 * The server's HTML table/paragraph extractor. A tokenizer delivers
 * callbacks (start tag, end tag, self-closing tag, text); the parser fixes
 * the document type from the first recognised tag, gathers rows and cells
 * (a `colspan` adds placeholder cells) and, on close, turns the rows into a
 * column-major grid of parsed values, or a one-cell grid for a paragraph or
 * plain text.
 *
 * The callbacks are modelled twice: as pure step functions over a `ParserState`
 * value, which the lemmas about whole event sequences use, and as the
 * methods of class `Parser`, which update its fields in place and are
 * proved to agree with the step functions.
 */
module HtmlTables {

  import opened Options

  // ---------------------------------------------------------------------
  // Text helpers: Python's `str.isspace`, `str.strip`, `str.replace`, `int`

  /** The characters Python's `str.isspace` accepts. */
  predicate IsSpace(c: char)
  {
    c == ' ' || ('\t' <= c <= '\r') || ('\U{1C}' <= c <= '\U{1F}')
    || c == '\U{85}' || c == '\U{A0}' || c == '\U{1680}'
    || ('\U{2000}' <= c <= '\U{200A}') || c == '\U{2028}' || c == '\U{2029}'
    || c == '\U{202F}' || c == '\U{205F}' || c == '\U{3000}'
  }

  predicate AllSpace(s: string)
  {
    forall i :: 0 <= i < |s| ==> IsSpace(s[i])
  }

  /** Number of leading whitespace characters. */
  function LeadingSpace(s: string): (n: nat)
    ensures n <= |s|
    ensures forall i :: 0 <= i < n ==> IsSpace(s[i])
    ensures n < |s| ==> !IsSpace(s[n])
  {
    if s == [] || !IsSpace(s[0]) then 0 else 1 + LeadingSpace(s[1..])
  }

  /** Number of trailing whitespace characters. */
  function TrailingSpace(s: string): (n: nat)
    ensures n <= |s|
    ensures forall i :: |s| - n <= i < |s| ==> IsSpace(s[i])
    ensures n < |s| ==> !IsSpace(s[|s| - 1 - n])
  {
    if s == [] || !IsSpace(s[|s| - 1]) then 0 else 1 + TrailingSpace(s[..|s| - 1])
  }

  /** `str.strip()`: the text without leading and trailing whitespace. */
  function Strip(s: string): (r: string)
    ensures |r| <= |s|
    ensures r == [] <==> AllSpace(s)
    ensures r != [] ==> !IsSpace(r[0]) && !IsSpace(r[|r| - 1])
  {
    var a := LeadingSpace(s);
    if a == |s| then ""
    else
      var b := TrailingSpace(s);
      assert !IsSpace(s[a]);
      s[a..|s| - b]
  }

  /** The leading-whitespace count is the unique `k` the contract of `LeadingSpace` allows. */
  lemma {:induction false} LeadingSpaceExact(s: string, k: nat)
    requires k <= |s| && (forall i :: 0 <= i < k ==> IsSpace(s[i]))
    requires k < |s| ==> !IsSpace(s[k])
    ensures LeadingSpace(s) == k
    decreases k
  {
    if k > 0 {
      assert IsSpace(s[0]);
      LeadingSpaceExact(s[1..], k - 1);
    }
  }

  /** The trailing-whitespace count is the unique `k` the contract of `TrailingSpace` allows. */
  lemma {:induction false} TrailingSpaceExact(s: string, k: nat)
    requires k <= |s| && (forall i :: |s| - k <= i < |s| ==> IsSpace(s[i]))
    requires k < |s| ==> !IsSpace(s[|s| - 1 - k])
    ensures TrailingSpace(s) == k
    decreases k
  {
    if k > 0 {
      assert IsSpace(s[|s| - 1]);
      var t := s[..|s| - 1];
      assert forall i :: |t| - (k - 1) <= i < |t| ==> t[i] == s[i];
      assert k - 1 < |t| ==> t[|t| - 1 - (k - 1)] == s[|s| - 1 - k];
      TrailingSpaceExact(t, k - 1);
    }
  }

  /** Stripping returns exactly the part between whitespace borders. */
  lemma StripBetween(a: string, m: string, b: string)
    requires AllSpace(a) && AllSpace(b)
    requires m != [] ==> !IsSpace(m[0]) && !IsSpace(m[|m| - 1])
    ensures Strip(a + m + b) == m
  {
    var s := a + m + b;
    assert forall i :: 0 <= i < |a| ==> s[i] == a[i];
    assert forall i :: |s| - |b| <= i < |s| ==> s[i] == b[i - (|s| - |b|)];
    if m != [] {
      assert s[|a|] == m[0];
      LeadingSpaceExact(s, |a|);
      assert s[|s| - 1 - |b|] == m[|m| - 1];
      TrailingSpaceExact(s, |b|);
      assert s[|a|..|s| - |b|] == m;
    } else {
      assert AllSpace(s) by {
        forall i | 0 <= i < |s| ensures IsSpace(s[i]) {
          if i < |a| { assert s[i] == a[i]; } else { assert s[i] == b[i - |a|]; }
        }
      }
    }
  }

  /** `str.replace(c, ' ')` for a single character `c`. */
  function ReplaceChar(s: string, c: char): (r: string)
    ensures |r| == |s|
    ensures c != ' ' ==> c !in r
  {
    if s == [] then [] else [if s[0] == c then ' ' else s[0]] + ReplaceChar(s[1..], c)
  }

  /** `str.replace('\r\n', ' ')`: non-overlapping occurrences, left to right. */
  function ReplaceCrLf(s: string): string
  {
    if s == [] then []
    else if |s| >= 2 && s[0] == '\r' && s[1] == '\n' then " " + ReplaceCrLf(s[2..])
    else [s[0]] + ReplaceCrLf(s[1..])
  }

  /** The three replacements `close` applies before stripping, in the source's order. */
  function NormaliseNewlines(s: string): string
  {
    ReplaceChar(ReplaceChar(ReplaceCrLf(s), '\r'), '\n')
  }

  /**
   * Reference definition in one pass: every line break (CR LF, a lone CR or
   * a lone LF) becomes one space.
   */
  function LineBreaksToSpaces(s: string): (r: string)
    ensures '\r' !in r && '\n' !in r
  {
    if s == [] then []
    else if |s| >= 2 && s[0] == '\r' && s[1] == '\n' then " " + LineBreaksToSpaces(s[2..])
    else if s[0] == '\r' || s[0] == '\n' then " " + LineBreaksToSpaces(s[1..])
    else [s[0]] + LineBreaksToSpaces(s[1..])
  }

  lemma ReplaceCharCons(x: char, s: string, c: char)
    ensures ReplaceChar([x] + s, c) == [if x == c then ' ' else x] + ReplaceChar(s, c)
  {
    assert ([x] + s)[1..] == s;
  }

  /** The three sequential replacements turn each line break into exactly one space. */
  lemma {:induction false} NormaliseIsOnePass(s: string)
    ensures NormaliseNewlines(s) == LineBreaksToSpaces(s)
    decreases |s|
  {
    if s == [] {
    } else if |s| >= 2 && s[0] == '\r' && s[1] == '\n' {
      NormaliseIsOnePass(s[2..]);
      ReplaceCharCons(' ', ReplaceCrLf(s[2..]), '\r');
      ReplaceCharCons(' ', ReplaceChar(ReplaceCrLf(s[2..]), '\r'), '\n');
    } else {
      NormaliseIsOnePass(s[1..]);
      assert ReplaceCrLf(s) == [s[0]] + ReplaceCrLf(s[1..]);
      ReplaceCharCons(s[0], ReplaceCrLf(s[1..]), '\r');
      var y := if s[0] == '\r' then ' ' else s[0];
      ReplaceCharCons(y, ReplaceChar(ReplaceCrLf(s[1..]), '\r'), '\n');
    }
  }

  /** Text put into a one-cell result never holds a line break. */
  lemma NormalisedHasNoLineBreak(s: string)
    ensures '\r' !in NormaliseNewlines(s) && '\n' !in NormaliseNewlines(s)
  {
    NormaliseIsOnePass(s);
  }

  predicate IsDigit(c: char)
  {
    '0' <= c <= '9'
  }

  predicate AllDigits(s: string)
  {
    s != [] && forall i :: 0 <= i < |s| ==> IsDigit(s[i])
  }

  function DigitValue(c: char): nat
    requires IsDigit(c)
  {
    c as int - '0' as int
  }

  /** Value of a string of decimal digits, most significant first. */
  function DigitsValue(s: string): nat
    requires forall i :: 0 <= i < |s| ==> IsDigit(s[i])
    decreases |s|
  {
    if s == [] then 0
    else DigitsValue(s[..|s| - 1]) * 10 + DigitValue(s[|s| - 1])
  }

  /**
   * The ASCII information separators U+001C..U+001F: `str.isspace` accepts
   * them, but `int` only skips the six ASCII blanks, so they make it fail
   * wherever they stand.
   */
  predicate HasInfoSeparator(s: string)
  {
    exists i :: 0 <= i < |s| && '\U{1C}' <= s[i] <= '\U{1F}'
  }

  /**
   * Python's `int(str)` on the forms this model admits: surrounding
   * whitespace, an optional sign, ASCII decimal digits. `None` stands for the
   * exception `int` raises.
   */
  function IntOf(s: string): (r: Option<int>)
    ensures r.Some? ==> !AllSpace(s)
    ensures HasInfoSeparator(s) ==> r.None?
  {
    var t := Strip(s);
    if t == [] || HasInfoSeparator(s) then None
    else if (t[0] == '-' || t[0] == '+') && AllDigits(t[1..]) then
      var v: int := DigitsValue(t[1..]);
      Some(if t[0] == '-' then -v else v)
    else if AllDigits(t) then Some(DigitsValue(t))
    else None
  }

  /** The decimal spelling of a natural number. */
  function NatDigits(n: nat): (s: string)
    ensures AllDigits(s)
  {
    var d := ['0' + (n % 10) as char];
    if n < 10 then d else NatDigits(n / 10) + d
  }

  /** The decimal spelling of an integer, with '-' when negative. */
  function Decimal(n: int): string
  {
    if n < 0 then "-" + NatDigits(-n) else NatDigits(n)
  }

  lemma {:induction false} NatDigitsValue(n: nat)
    ensures DigitsValue(NatDigits(n)) == n
  {
    var s := NatDigits(n);
    if n >= 10 {
      NatDigitsValue(n / 10);
      assert s[..|s| - 1] == NatDigits(n / 10);
    }
  }

  /** `int` reads back every integer from its decimal spelling. */
  lemma IntOfDecimal(n: int)
    ensures IntOf(Decimal(n)) == Some(n)
  {
    var s := Decimal(n);
    var m: nat := if n < 0 then -n else n;
    var digits := NatDigits(m);
    NatDigitsValue(m);
    assert s[0] == '-' || IsDigit(s[0]);
    assert IsDigit(s[|s| - 1]);
    NoBorderSpace(s);
    if n < 0 {
      assert s == "-" + digits;
      assert s[1..] == digits;
      var v: int := DigitsValue(digits);
      assert IntOf(s) == Some(-v);
    } else {
      assert s == digits;
      assert !(s[0] == '-' || s[0] == '+');
    }
  }

  /** A string with non-space ends is its own strip. */
  lemma NoBorderSpace(s: string)
    requires s != [] && !IsSpace(s[0]) && !IsSpace(s[|s| - 1])
    ensures Strip(s) == s
  {
    StripBetween("", s, "");
    assert "" + s + "" == s;
  }

  /** A cell value after `_parse`: an integer, or the text itself. */
  datatype Value = IntValue(i: int) | TextValue(text: string)

  /** `_parse`, without its floating-point branch. */
  function Parse(s: string): (v: Value)
    ensures v.TextValue? ==> v.text == s
    ensures v.IntValue? <==> IntOf(s).Some?
    ensures v.IntValue? ==> v.i == IntOf(s).value
  {
    match IntOf(s)
    case Some(i) => IntValue(i)
    case None => TextValue(s)
  }

  // ---------------------------------------------------------------------
  // Tokenizer events and the parser's state

  datatype DocType = Unknown | Table | Para

  datatype Attr = Attr(name: string, value: Option<string>)

  /** The callbacks the tokenizer makes, in order. */
  datatype Event =
    | StartTag(tag: string, attrs: seq<Attr>)
    | EndTag(tag: string)
    | StartEndTag(tag: string, attrs: seq<Attr>)
    | Data(text: string)

  /** A cell's text, or `None` for a placeholder left by a colspan. */
  type Cell = Option<string>
  type Row = seq<Cell>

  /** The result: a list of columns, each holding one entry per row. */
  type Grid = seq<seq<Option<Value>>>

  datatype ParserState = ParserState(
    kind: DocType,
    rows: seq<Row>,
    currentRow: Option<Row>,
    currentCell: Option<string>,
    currentSpan: Option<int>,   // `None` until the first cell is added
    justData: string)

  const Init := ParserState(Unknown, [], None, None, None, "")

  predicate IsTableTag(tag: string)
  {
    tag == "table" || tag == "tr" || tag == "td" || tag == "th"
  }

  predicate IsParaTag(tag: string)
  {
    tag == "p" || tag == "span"
  }

  predicate IsCellTag(tag: string)
  {
    tag == "td" || tag == "th"
  }

  /**
   * The invariant every reachable state keeps: nothing is gathered before
   * the type is known, a paragraph always has its cell open, and an open
   * table cell always has a row to go into and a span.
   */
  predicate Inv(st: ParserState)
  {
    && (st.kind == Unknown ==> st.rows == [] && st.currentRow.None? && st.currentCell.None?)
    && (st.kind == Para ==> st.rows == [] && st.currentRow.None? && st.currentCell.Some?)
    && (st.kind == Table && st.currentCell.Some? ==> st.currentRow.Some? && st.currentSpan.Some?)
  }

  /** `_get_span`, as a specification: the first `colspan` attribute decides. */
  function SpanOf(attrs: seq<Attr>): int
  {
    if attrs == [] then 1
    else if attrs[0].name == "colspan" then ColspanValue(attrs[0].value)
    else SpanOf(attrs[1..])
  }

  /** `int(value)`, falling back to 1 on any exception (including a value-less attribute). */
  function ColspanValue(value: Option<string>): int
  {
    match value
    case None => 1
    case Some(v) => match IntOf(v) case Some(n) => n case None => 1
  }

  /** The first `colspan` attribute decides the span; without one it is 1. */
  lemma {:induction false} SpanOfFirstColspan(attrs: seq<Attr>, i: nat)
    requires i <= |attrs|
    requires forall j :: 0 <= j < i ==> attrs[j].name != "colspan"
    ensures SpanOf(attrs) == if i == |attrs| then 1 else SpanOf(attrs[i..])
    ensures i < |attrs| && attrs[i].name == "colspan" ==> SpanOf(attrs) == ColspanValue(attrs[i].value)
  {
    if i > 0 {
      SpanOfFirstColspan(attrs[1..], i - 1);
      assert attrs[1..][i - 1..] == attrs[i..];
    }
  }

  /** The `range(1, span)` placeholders a finalised cell leaves behind it. */
  function Placeholders(span: int): (p: Row)
    ensures |p| == (if span > 1 then span - 1 else 0)
    ensures forall i :: 0 <= i < |p| ==> p[i].None?
  {
    seq(if span > 1 then span - 1 else 0, _ => None)
  }

  /** `_finalise_cell`: move the open cell and its placeholders into the row. */
  function FinaliseCellStep(st: ParserState): (r: ParserState)
    requires st.currentCell.Some? ==> st.currentRow.Some? && st.currentSpan.Some?
    ensures r.currentCell.None?
    ensures st.currentCell.None? ==> r == st
    ensures st.currentCell.Some? ==>
      && r.rows == st.rows
      && PendingRows(r) == st.rows + [st.currentRow.value + [st.currentCell] + Placeholders(st.currentSpan.value)]
  {
    match st.currentCell
    case None => st
    case Some(text) =>
      st.(currentRow := Some(st.currentRow.value + [Some(text)] + Placeholders(st.currentSpan.value)),
          currentCell := None)
  }

  /** `_add_cell`: open a fresh empty cell, creating a row if needed. */
  function AddCellStep(st: ParserState, span: int): (r: ParserState)
    ensures r.currentCell == Some("") && r.currentSpan == Some(span)
    ensures r.currentRow.Some? && (st.currentRow.Some? ==> r.currentRow == st.currentRow)
    ensures st.currentRow.None? ==> r.currentRow == Some([])
    ensures r.kind == st.kind && r.rows == st.rows && r.justData == st.justData
  {
    st.(currentRow := if st.currentRow.None? then Some([]) else st.currentRow,
        currentCell := Some(""),
        currentSpan := Some(span))
  }

  /** `handle_starttag`. */
  function StartTagStep(st: ParserState, tag: string, attrs: seq<Attr>): (r: ParserState)
    requires Inv(st)
    ensures Inv(r)
  {
    var s1 :=
      if st.kind != Unknown then st
      else if IsTableTag(tag) then st.(kind := Table)
      else if IsParaTag(tag) then
        st.(kind := Para, currentCell := if st.currentCell.None? then Some("") else st.currentCell)
      else st;
    if s1.kind != Table then s1
    else if tag == "tr" then
      var s2 := FinaliseCellStep(s1);
      s2.(rows := if s2.currentRow.Some? then s2.rows + [s2.currentRow.value] else s2.rows,
          currentRow := Some([]))
    else if IsCellTag(tag) then AddCellStep(s1, SpanOf(attrs))
    else s1
  }

  /** `handle_endtag`. */
  function EndTagStep(st: ParserState, tag: string): (r: ParserState)
    requires Inv(st)
    ensures Inv(r)
    ensures r.currentCell.None? || r == st
    ensures st.currentCell.None? ==> r == st
    ensures st.kind == Table && IsCellTag(tag) && st.currentCell.Some? ==>
      PendingRows(r) == st.rows + [st.currentRow.value + [st.currentCell] + Placeholders(st.currentSpan.value)]
    ensures !(st.kind == Table && IsCellTag(tag)) ==> r == st
  {
    if st.kind == Table && IsCellTag(tag) then FinaliseCellStep(st) else st
  }

  /** `handle_startendtag`. */
  function StartEndTagStep(st: ParserState, tag: string, attrs: seq<Attr>): (r: ParserState)
    requires Inv(st)
    ensures Inv(r)
    ensures st.kind == Table && IsCellTag(tag) ==>
      && r.currentCell.None?
      && r.rows == st.rows
      && r.currentSpan == Some(SpanOf(attrs))
      && PendingRows(r) == st.rows + [(if st.currentRow.Some? then st.currentRow.value else [])
                                      + [Some("")] + Placeholders(SpanOf(attrs))]
    ensures !(st.kind == Table && IsCellTag(tag)) ==> r == st
  {
    if st.kind == Table && IsCellTag(tag) then FinaliseCellStep(AddCellStep(st, SpanOf(attrs))) else st
  }

  /** `handle_data`: text goes to the open cell, otherwise to `_just_data`. */
  function DataStep(st: ParserState, text: string): (r: ParserState)
    requires Inv(st)
    ensures Inv(r)
  {
    match st.currentCell
    case Some(c) => st.(currentCell := Some(c + text))
    case None => st.(justData := st.justData + text)
  }

  /** The kind a recognised start tag gives an undecided document. */
  function TagKind(tag: string): DocType
  {
    if IsTableTag(tag) then Table else if IsParaTag(tag) then Para else Unknown
  }

  function Step(st: ParserState, ev: Event): (r: ParserState)
    requires Inv(st)
    ensures Inv(r)
    ensures st.kind != Unknown ==> r.kind == st.kind
    ensures st.kind == Unknown ==> r.kind == (if ev.StartTag? then TagKind(ev.tag) else Unknown)
  {
    match ev
    case StartTag(tag, attrs) => StartTagStep(st, tag, attrs)
    case EndTag(tag) => EndTagStep(st, tag)
    case StartEndTag(tag, attrs) => StartEndTagStep(st, tag, attrs)
    case Data(text) => DataStep(st, text)
  }

  function Run(st: ParserState, evs: seq<Event>): (r: ParserState)
    requires Inv(st)
    ensures Inv(r)
    decreases |evs|
  {
    if evs == [] then st else Run(Step(st, evs[0]), evs[1..])
  }

  lemma {:induction false} RunAppend(st: ParserState, a: seq<Event>, b: seq<Event>)
    requires Inv(st)
    ensures Run(st, a + b) == Run(Run(st, a), b)
    decreases |a|
  {
    if a == [] {
      assert a + b == b;
    } else {
      assert (a + b)[0] == a[0];
      assert (a + b)[1..] == a[1..] + b;
      RunAppend(Step(st, a[0]), a[1..], b);
    }
  }

  // ---------------------------------------------------------------------
  // The document type

  /** The kind given by the first start tag that is a table or paragraph tag. */
  function FirstKind(evs: seq<Event>): DocType
  {
    if evs == [] then Unknown
    else if evs[0].StartTag? && TagKind(evs[0].tag) != Unknown then TagKind(evs[0].tag)
    else FirstKind(evs[1..])
  }

  /**
   * The type is set once, by the first recognised start tag; later tags (and
   * self-closing tags at any point) never change it.
   */
  lemma {:induction false} KindOfRun(st: ParserState, evs: seq<Event>)
    requires Inv(st)
    ensures Run(st, evs).kind == if st.kind != Unknown then st.kind else FirstKind(evs)
    decreases |evs|
  {
    if evs != [] {
      KindOfRun(Step(st, evs[0]), evs[1..]);
    }
  }

  /** Concatenated text of the `Data` events. */
  function AllData(evs: seq<Event>): string
  {
    if evs == [] then ""
    else (if evs[0].Data? then evs[0].text else "") + AllData(evs[1..])
  }

  /** In a paragraph document every later text event goes into the one cell. */
  lemma {:induction false} ParaCollects(st: ParserState, evs: seq<Event>)
    requires Inv(st) && st.kind == Para
    ensures Run(st, evs).kind == Para
    ensures Run(st, evs).currentCell == Some(st.currentCell.value + AllData(evs))
    ensures Run(st, evs).justData == st.justData
    decreases |evs|
  {
    if evs == [] {
      assert st.currentCell.value + AllData(evs) == st.currentCell.value;
    } else {
      var next := Step(st, evs[0]);
      var text := if evs[0].Data? then evs[0].text else "";
      match evs[0] {
        case Data(t) =>
          assert next == DataStep(st, t);
        case _ =>
          assert next == st;
          assert st.currentCell.value + text == st.currentCell.value;
      }
      assert next == st.(currentCell := Some(st.currentCell.value + text));
      ParaCollects(next, evs[1..]);
      assert AllData(evs) == text + AllData(evs[1..]);
      assert st.currentCell.value + text + AllData(evs[1..]) == st.currentCell.value + AllData(evs);
    }
  }

  /** While the type is undecided, text accumulates in `_just_data` and nothing else changes. */
  lemma {:induction false} UnknownCollects(st: ParserState, evs: seq<Event>)
    requires Inv(st) && st.kind == Unknown && FirstKind(evs) == Unknown
    ensures Run(st, evs) == st.(justData := st.justData + AllData(evs))
    decreases |evs|
  {
    if evs != [] {
      var next := Step(st, evs[0]);
      assert next == st.(justData := st.justData + (if evs[0].Data? then evs[0].text else ""));
      UnknownCollects(next, evs[1..]);
    }
  }

  /**
   * A paragraph's content is the text after the first `p`/`span` tag; the
   * text before it stays in `_just_data` and never reaches the result.
   */
  lemma ParaDropsLeadingText(pre: seq<Event>, tag: string, attrs: seq<Attr>, post: seq<Event>)
    requires FirstKind(pre) == Unknown && IsParaTag(tag)
    ensures Run(Init, pre + [StartTag(tag, attrs)] + post).kind == Para
    ensures Run(Init, pre + [StartTag(tag, attrs)] + post).currentCell == Some(AllData(post))
    ensures Run(Init, pre + [StartTag(tag, attrs)] + post).justData == AllData(pre)
  {
    RunAppend(Init, pre + [StartTag(tag, attrs)], post);
    RunAppend(Init, pre, [StartTag(tag, attrs)]);
    UnknownCollects(Init, pre);
    var st := Run(Init, pre);
    var open := Step(st, StartTag(tag, attrs));
    assert Run(st, [StartTag(tag, attrs)]) == open;
    assert open.currentCell == Some("");
    ParaCollects(open, post);
    assert "" + AllData(post) == AllData(post);
  }

  // ---------------------------------------------------------------------
  // Rows only grow

  /** The rows `close` will see: the finished rows and the pending one. */
  function PendingRows(st: ParserState): seq<Row>
  {
    if st.currentRow.Some? then st.rows + [st.currentRow.value] else st.rows
  }

  /** Every row of `a` is a prefix of the row at the same place in `b`. */
  ghost predicate Extends(a: seq<Row>, b: seq<Row>)
  {
    |a| <= |b| && forall i :: 0 <= i < |a| ==> a[i] <= b[i]
  }

  lemma StepExtends(st: ParserState, ev: Event)
    requires Inv(st)
    ensures Extends(PendingRows(st), PendingRows(Step(st, ev)))
  {
  }

  /** Once a cell is finalised its text and position in the table never change. */
  lemma {:induction false} RunExtends(st: ParserState, evs: seq<Event>)
    requires Inv(st)
    ensures Extends(PendingRows(st), PendingRows(Run(st, evs)))
    decreases |evs|
  {
    if evs != [] {
      StepExtends(st, evs[0]);
      RunExtends(Step(st, evs[0]), evs[1..]);
    }
  }

  predicate NoPlaceholder(rows: seq<Row>)
  {
    forall r, c :: 0 <= r < |rows| && 0 <= c < |rows[r]| ==> rows[r][c].Some?
  }

  /** A placeholder, once in the pending rows, stays there whatever follows. */
  lemma PlaceholderStays(st: ParserState, evs: seq<Event>)
    requires Inv(st) && !NoPlaceholder(PendingRows(st))
    ensures !NoPlaceholder(PendingRows(Run(st, evs)))
  {
    var p: seq<Row> := PendingRows(st);
    var r: int, c: int :| 0 <= r < |p| && 0 <= c < |p[r]| && p[r][c].None?;
    RunExtends(st, evs);
    var q: seq<Row> := PendingRows(Run(st, evs));
    assert p[r] <= q[r];
    assert q[r][c].None?;
  }

  /**
   * A self-closing table cell with a colspan of 2 or more leaves a
   * placeholder that stays in the rows whatever follows, so `close` will
   * meet it.
   */
  lemma ColspanLeavesPlaceholder(pre: seq<Event>, tag: string, attrs: seq<Attr>, post: seq<Event>)
    requires Run(Init, pre).kind == Table && IsCellTag(tag) && SpanOf(attrs) >= 2
    ensures !NoPlaceholder(PendingRows(Run(Init, pre + [StartEndTag(tag, attrs)] + post)))
  {
    RunAppend(Init, pre + [StartEndTag(tag, attrs)], post);
    RunAppend(Init, pre, [StartEndTag(tag, attrs)]);
    var st := Run(Init, pre);
    var after := Step(st, StartEndTag(tag, attrs));
    assert Run(st, [StartEndTag(tag, attrs)]) == after;
    var row := after.currentRow.value;
    var p := PendingRows(after);
    assert p[|p| - 1] == row && row[|row| - 1].None?;
    PlaceholderStays(after, post);
  }

  /**
   * Callbacks a table document ignores apart from their text: data, and
   * tags other than `tr`, `td` and `th`.
   */
  predicate Inert(ev: Event)
  {
    match ev
    case Data(_) => true
    case StartTag(tag, _) => tag != "tr" && !IsCellTag(tag)
    case EndTag(tag) => !IsCellTag(tag)
    case StartEndTag(tag, _) => !IsCellTag(tag)
  }

  /**
   * In a table, text outside any cell goes to `_just_data`, which `close`
   * never reads for a table: the rows, the open row and the span stay as
   * they were, so the text is lost.
   */
  lemma {:induction false} TableStrayText(st: ParserState, evs: seq<Event>)
    requires Inv(st) && st.kind == Table && st.currentCell.None?
    requires forall i :: 0 <= i < |evs| ==> Inert(evs[i])
    ensures Run(st, evs) == st.(justData := st.justData + AllData(evs))
    ensures PendingRows(Run(st, evs)) == PendingRows(st)
    decreases |evs|
  {
    if evs == [] {
      assert st.justData + AllData(evs) == st.justData;
    } else {
      var text := if evs[0].Data? then evs[0].text else "";
      var next := Step(st, evs[0]);
      assert next == st.(justData := st.justData + text);
      TableStrayText(next, evs[1..]);
      assert AllData(evs) == text + AllData(evs[1..]);
      assert st.justData + text + AllData(evs[1..]) == st.justData + AllData(evs);
    }
  }

  /** In a table, text inside an open cell is appended to it and nothing else changes. */
  lemma {:induction false} TableCellCollects(st: ParserState, evs: seq<Event>)
    requires Inv(st) && st.kind == Table && st.currentCell.Some?
    requires forall i :: 0 <= i < |evs| ==> Inert(evs[i])
    ensures Run(st, evs) == st.(currentCell := Some(st.currentCell.value + AllData(evs)))
    decreases |evs|
  {
    if evs == [] {
      assert st.currentCell.value + AllData(evs) == st.currentCell.value;
      assert st.(currentCell := Some(st.currentCell.value)) == st;
    } else {
      var text := if evs[0].Data? then evs[0].text else "";
      var next := Step(st, evs[0]);
      if !evs[0].Data? {
        assert next == st;
        assert st.currentCell.value + text == st.currentCell.value;
      }
      assert next == st.(currentCell := Some(st.currentCell.value + text));
      TableCellCollects(next, evs[1..]);
      assert AllData(evs) == text + AllData(evs[1..]);
      assert st.currentCell.value + text + AllData(evs[1..]) == st.currentCell.value + AllData(evs);
    }
  }

  /**
   * A `td`/`th` start tag while a cell is open opens a fresh empty cell in
   * its place: the open cell's text is dropped without reaching the rows.
   */
  lemma CellStartDropsOpenCell(st: ParserState, tag: string, attrs: seq<Attr>)
    requires Inv(st) && st.kind == Table && st.currentCell.Some? && IsCellTag(tag)
    ensures Step(st, StartTag(tag, attrs)) ==
      st.(currentCell := Some(""), currentSpan := Some(SpanOf(attrs)))
    ensures PendingRows(Step(st, StartTag(tag, attrs))) == PendingRows(st)
  {
  }

  /**
   * A `td`/`th` element closed by a cell end tag puts its text, then
   * `span - 1` placeholders, at the end of the current row (a fresh one if
   * none is open), and leaves no cell open.
   */
  lemma CellReachesRow(st: ParserState, tag: string, attrs: seq<Attr>, mid: seq<Event>, tag': string)
    requires Inv(st) && st.kind == Table && IsCellTag(tag) && IsCellTag(tag')
    requires forall i :: 0 <= i < |mid| ==> Inert(mid[i])
    ensures Run(st, [StartTag(tag, attrs)] + mid + [EndTag(tag')]) ==
      st.(currentRow := Some((if st.currentRow.Some? then st.currentRow.value else [])
                             + [Some(AllData(mid))] + Placeholders(SpanOf(attrs))),
          currentCell := None,
          currentSpan := Some(SpanOf(attrs)))
  {
    var open := [StartTag(tag, attrs)];
    var close := [EndTag(tag')];
    RunAppend(st, open + mid, close);
    RunAppend(st, open, mid);
    var a := Step(st, open[0]);
    assert Run(st, open) == a;
    assert a == AddCellStep(st, SpanOf(attrs));
    TableCellCollects(a, mid);
    var b := Run(a, mid);
    assert "" + AllData(mid) == AllData(mid);
    assert b == a.(currentCell := Some(AllData(mid)));
    var c := Step(b, close[0]);
    assert Run(b, close) == c;
    assert c == FinaliseCellStep(b);
  }

  /**
   * A `tr` start tag in a table first finalises an open cell into the
   * current row, then pushes that row and opens an empty one.
   */
  lemma TrSavesOpenCell(st: ParserState, attrs: seq<Attr>)
    requires Inv(st) && st.kind == Table
    ensures Step(st, StartTag("tr", attrs)).currentRow == Some([])
    ensures Step(st, StartTag("tr", attrs)).currentCell.None?
    ensures st.currentCell.Some? ==>
      PendingRows(Step(st, StartTag("tr", attrs)))
        == st.rows + [st.currentRow.value + [st.currentCell] + Placeholders(st.currentSpan.value), []]
    ensures st.currentCell.None? ==> PendingRows(Step(st, StartTag("tr", attrs))) == PendingRows(st) + [[]]
  {
  }

  /**
   * A `td`/`th` element with a colspan of 2 or more, closed by a cell end
   * tag, also leaves a placeholder that stays in the rows whatever follows.
   */
  lemma ColspanCellLeavesPlaceholder(pre: seq<Event>, tag: string, attrs: seq<Attr>,
                                     mid: seq<Event>, tag': string, post: seq<Event>)
    requires Run(Init, pre).kind == Table && IsCellTag(tag) && SpanOf(attrs) >= 2
    requires forall i :: 0 <= i < |mid| ==> Inert(mid[i])
    requires IsCellTag(tag')
    ensures !NoPlaceholder(PendingRows(Run(Init, pre + [StartTag(tag, attrs)] + mid + [EndTag(tag')] + post)))
  {
    var open := [StartTag(tag, attrs)];
    var close := [EndTag(tag')];
    RunAppend(Init, pre + open + mid + close, post);
    RunAppend(Init, pre + open + mid, close);
    RunAppend(Init, pre + open, mid);
    RunAppend(Init, pre, open);
    var st := Run(Init, pre);
    var a := Step(st, open[0]);
    assert Run(st, open) == a;
    assert a.currentCell == Some("");
    TableCellCollects(a, mid);
    var b := Run(a, mid);
    assert "" + AllData(mid) == AllData(mid);
    assert b.currentCell == Some(AllData(mid)) && b.currentSpan == Some(SpanOf(attrs));
    var c := Step(b, close[0]);
    assert c == FinaliseCellStep(b);
    assert Run(b, close) == c;
    var row := c.currentRow.value;
    assert row == b.currentRow.value + [Some(AllData(mid))] + Placeholders(SpanOf(attrs));
    var p := PendingRows(c);
    assert p[|p| - 1] == row && row[|row| - 1].None?;
    PlaceholderStays(c, post);
  }

  // ---------------------------------------------------------------------
  // The result of `close`

  /** The longest row length, 0 with no rows. */
  function MaxLen(rows: seq<Row>): (n: nat)
    ensures forall i :: 0 <= i < |rows| ==> |rows[i]| <= n
    ensures rows == [] ==> n == 0
    ensures rows != [] ==> exists i :: 0 <= i < |rows| && |rows[i]| == n
  {
    if rows == [] then 0
    else
      var m := MaxLen(rows[1..]);
      if |rows[0]| >= m then |rows[0]| else m
  }

  /** Row `r`'s `c`-th cell, stripped and parsed; `None` past the row's end. */
  function CellValue(rows: seq<Row>, c: int, r: int): Option<Value>
    requires 0 <= r < |rows|
  {
    if 0 <= c < |rows[r]| && rows[r][c].Some? then Some(Parse(Strip(rows[r][c].value))) else None
  }

  /** The column-major grid `close` builds from placeholder-free rows. */
  function TableGrid(rows: seq<Row>): (g: Grid)
    ensures |g| == MaxLen(rows)
    ensures forall c :: 0 <= c < |g| ==> |g[c]| == |rows|
  {
    seq(MaxLen(rows), c => seq(|rows|, r => if 0 <= r < |rows| then CellValue(rows, c, r) else None))
  }

  /**
   * The table result is the transpose of the rows: one column per position
   * of the longest row, one entry per row in each, the parsed text where a
   * row has a cell and `None` past its end.
   */
  lemma TableGridTransposes(rows: seq<Row>)
    requires NoPlaceholder(rows)
    ensures |TableGrid(rows)| == MaxLen(rows)
    ensures forall c :: 0 <= c < |TableGrid(rows)| ==> |TableGrid(rows)[c]| == |rows|
    ensures forall c, r :: 0 <= c < MaxLen(rows) && 0 <= r < |rows| ==>
      (TableGrid(rows)[c][r].Some? <==> c < |rows[r]|)
    ensures forall c, r :: 0 <= r < |rows| && 0 <= c < |rows[r]| ==>
      c < MaxLen(rows) && TableGrid(rows)[c][r] == Some(Parse(Strip(rows[r][c].value)))
  {
    var g := TableGrid(rows);
    forall c, r | 0 <= c < MaxLen(rows) && 0 <= r < |rows|
      ensures g[c][r] == CellValue(rows, c, r)
    {
    }
    forall c, r | 0 <= r < |rows| && 0 <= c < |rows[r]|
      ensures c < MaxLen(rows) && g[c][r] == Some(Parse(Strip(rows[r][c].value)))
    {
      assert |rows[r]| <= MaxLen(rows);
      assert rows[r][c].Some?;
    }
  }

  /**
   * The grid part-way through `close`'s nested loops: every row before `r`,
   * and the first `c` cells of row `r`, are in place; the rest is `None`.
   */
  ghost predicate Filled(grid: Grid, rows: seq<Row>, r: int, c: int)
  {
    && |grid| == MaxLen(rows)
    && (forall c' :: 0 <= c' < |grid| ==> |grid[c']| == |rows|)
    && (forall c', r' :: 0 <= c' < |grid| && 0 <= r' < |rows| ==>
          grid[c'][r'] == if r' < r || (r' == r && c' < c) then CellValue(rows, c', r') else None)
  }

  /** `n_cols` columns of `n_rows` entries, all `None`. */
  function EmptyGrid(cols: nat, rows: nat): (g: Grid)
    ensures |g| == cols && forall c :: 0 <= c < cols ==> |g[c]| == rows
  {
    seq(cols, _ => seq(rows, _ => None))
  }

  lemma FillStart(rows: seq<Row>)
    ensures Filled(EmptyGrid(MaxLen(rows), |rows|), rows, 0, 0)
  {
  }

  lemma FillCell(grid: Grid, rows: seq<Row>, r: int, c: int)
    requires 0 <= r < |rows| && 0 <= c < |rows[r]| && rows[r][c].Some?
    requires Filled(grid, rows, r, c)
    ensures Filled(grid[c := grid[c][r := CellValue(rows, c, r)]], rows, r, c + 1)
  {
  }

  lemma FillRowDone(grid: Grid, rows: seq<Row>, r: int)
    requires 0 <= r < |rows| && Filled(grid, rows, r, |rows[r]|)
    ensures Filled(grid, rows, r + 1, 0)
  {
  }

  lemma FillDone(grid: Grid, rows: seq<Row>)
    requires Filled(grid, rows, |rows|, 0)
    ensures grid == TableGrid(rows)
  {
    forall c | 0 <= c < |grid| ensures grid[c] == TableGrid(rows)[c] {
      assert |grid[c]| == |rows| == |TableGrid(rows)[c]|;
    }
  }

  /** The one-cell result of a paragraph or of plain text. */
  function TextGrid(text: string): (g: Grid)
    ensures |g| == 1 && |g[0]| == 1 && g[0][0].Some?
  {
    [[Some(Parse(Strip(NormaliseNewlines(text))))]]
  }

  // ---------------------------------------------------------------------
  // The parser object

  class Parser {
    var kind: DocType
    var rows: seq<Row>
    var currentRow: Option<Row>
    var currentCell: Option<string>
    var currentSpan: Option<int>
    var justData: string
    var result: Option<Grid>
    /** The misspelt attribute `_results` that `close` writes for an empty document. */
    var strayResults: Option<Grid>

    function State(): ParserState
      reads this
    {
      ParserState(kind, rows, currentRow, currentCell, currentSpan, justData)
    }

    predicate Valid()
      reads this
    {
      Inv(State())
    }

    constructor ()
      ensures Valid() && State() == Init
      ensures result.None? && strayResults.None?
    {
      kind, rows, currentRow, currentCell, currentSpan, justData := Unknown, [], None, None, None, "";
      result, strayResults := None, None;
    }

    /** `result()`. */
    function Result(): (r: Option<Grid>)
      reads this
      ensures r == result
    {
      result
    }

    method HandleData(text: string)
      requires Valid()
      modifies this
      ensures Valid() && State() == DataStep(old(State()), text)
      ensures result == old(result) && strayResults == old(strayResults)
    {
      if currentCell.Some? {
        currentCell := Some(currentCell.value + text);
      } else {
        justData := justData + text;
      }
    }

    method HandleStartTag(tag: string, attrs: seq<Attr>)
      requires Valid()
      modifies this
      ensures Valid() && State() == StartTagStep(old(State()), tag, attrs)
      ensures result == old(result) && strayResults == old(strayResults)
    {
      if kind == Unknown {
        if IsTableTag(tag) {
          kind := Table;
        } else if IsParaTag(tag) {
          kind := Para;
          if currentCell.None? {
            currentCell := Some("");
          }
        }
      }
      if kind == Table {
        if tag == "tr" {
          FinaliseCell();
          if currentRow.Some? {
            rows := rows + [currentRow.value];
          }
          currentRow := Some([]);
        } else if IsCellTag(tag) {
          var span := GetSpan(attrs);
          AddCell(span);
        }
      }
    }

    method HandleEndTag(tag: string)
      requires Valid()
      modifies this
      ensures Valid() && State() == EndTagStep(old(State()), tag)
      ensures result == old(result) && strayResults == old(strayResults)
    {
      if kind == Table && IsCellTag(tag) {
        FinaliseCell();
      }
    }

    method HandleStartEndTag(tag: string, attrs: seq<Attr>)
      requires Valid()
      modifies this
      ensures Valid() && State() == StartEndTagStep(old(State()), tag, attrs)
      ensures result == old(result) && strayResults == old(strayResults)
    {
      if kind == Table && IsCellTag(tag) {
        var span := GetSpan(attrs);
        AddCell(span);
        FinaliseCell();
      }
    }

    /** Delivers a sequence of tokenizer callbacks in order. */
    method Feed(evs: seq<Event>)
      requires Valid()
      modifies this
      ensures Valid() && State() == Run(old(State()), evs)
      ensures result == old(result) && strayResults == old(strayResults)
    {
      var i := 0;
      while i < |evs|
        invariant 0 <= i <= |evs|
        decreases |evs| - i
        invariant Valid() && Run(old(State()), evs) == Run(State(), evs[i..])
        invariant result == old(result) && strayResults == old(strayResults)
      {
        assert evs[i..][0] == evs[i] && evs[i..][1..] == evs[i + 1..];
        match evs[i] {
          case StartTag(tag, attrs) => HandleStartTag(tag, attrs);
          case EndTag(tag) => HandleEndTag(tag);
          case StartEndTag(tag, attrs) => HandleStartEndTag(tag, attrs);
          case Data(text) => HandleData(text);
        }
        i := i + 1;
      }
    }

    /** `_get_span`: the first `colspan` attribute, read with `int`, else 1. */
    method GetSpan(attrs: seq<Attr>) returns (span: int)
      ensures (forall i :: 0 <= i < |attrs| ==> attrs[i].name != "colspan") ==> span == 1
      ensures forall i :: (0 <= i < |attrs| && attrs[i].name == "colspan" &&
        (forall j :: 0 <= j < i ==> attrs[j].name != "colspan")) ==>
          span == ColspanValue(attrs[i].value)
      ensures span == SpanOf(attrs)
    {
      var k := 0;
      while k < |attrs|
        invariant 0 <= k <= |attrs|
        invariant forall j :: 0 <= j < k ==> attrs[j].name != "colspan"
      {
        if attrs[k].name == "colspan" {
          SpanOfFirstColspan(attrs, k);
          return ColspanValue(attrs[k].value);
        }
        k := k + 1;
      }
      SpanOfFirstColspan(attrs, k);
      return 1;
    }

    /**
     * The table branch of `close`: preallocate `n_cols` columns of `n_rows`
     * entries, then fill them row by row; stops (`raised`) at the first
     * placeholder, where `strip` is called on `None`.
     */
    method BuildGrid(rows: seq<Row>) returns (raised: bool, grid: Grid)
      ensures raised <==> !NoPlaceholder(rows)
      ensures !raised ==> grid == TableGrid(rows)
      ensures |grid| == MaxLen(rows)
    {
      raised := false;
      grid := EmptyGrid(MaxLen(rows), |rows|);
      FillStart(rows);
      var r := 0;
      while r < |rows|
        invariant 0 <= r <= |rows|
        invariant Filled(grid, rows, r, 0)
        invariant forall r', c' :: 0 <= r' < r && 0 <= c' < |rows[r']| ==> rows[r'][c'].Some?
      {
        var rowRaised, next := FillRow(grid, rows, r);
        grid := next;
        if rowRaised {
          raised := true;
          return;
        }
        r := r + 1;
      }
      FillDone(grid, rows);
    }

    /** One pass of the inner loop of `close`: row `r`'s cells, stripped and parsed, into entry `r` of each column. */
    method FillRow(grid: Grid, rows: seq<Row>, r: nat) returns (raised: bool, filled: Grid)
      requires r < |rows| && Filled(grid, rows, r, 0)
      ensures raised <==> exists c :: 0 <= c < |rows[r]| && rows[r][c].None?
      ensures !raised ==> Filled(filled, rows, r + 1, 0)
      ensures |filled| == MaxLen(rows)
    {
      raised := false;
      filled := grid;
      var row := rows[r];
      var c := 0;
      while c < |row|
        invariant 0 <= c <= |row| <= |filled|
        invariant Filled(filled, rows, r, c)
        invariant forall c' :: 0 <= c' < c ==> row[c'].Some?
      {
        var cell := row[c];
        if cell.None? {
          return true, filled;
        }
        var value := Parse(Strip(cell.value));
        FillCell(filled, rows, r, c);
        assert CellValue(rows, c, r) == Some(value);
        filled := filled[c := filled[c][r := Some(value)]];
        c := c + 1;
      }
      FillRowDone(filled, rows, r);
    }

    /** `_add_cell`. */
    method AddCell(span: int)
      modifies this
      ensures State() == AddCellStep(old(State()), span)
      ensures result == old(result) && strayResults == old(strayResults)
    {
      if currentRow.None? {
        currentRow := Some([]);
      }
      currentCell := Some("");
      currentSpan := Some(span);
    }

    /** `_finalise_cell`: the cell's text, then `span - 1` placeholders. */
    method FinaliseCell()
      requires currentCell.Some? ==> currentRow.Some? && currentSpan.Some?
      modifies this
      ensures State() == FinaliseCellStep(old(State()))
      ensures result == old(result) && strayResults == old(strayResults)
    {
      if currentCell.Some? {
        var row := currentRow.value + [currentCell];
        var i := 1;
        while i < currentSpan.value
          invariant 1 <= i && (i <= currentSpan.value || i == 1)
          invariant row == old(currentRow).value + [old(currentCell)] + Placeholders(i)
        {
          row := row + [None];
          i := i + 1;
        }
        currentRow := Some(row);
        currentCell := None;
      }
    }

    /**
     * `close`. Returns `raised` when the source raises: in a table, `strip`
     * meets a colspan placeholder (`None`).
     */
    method Close() returns (raised: bool)
      requires Valid()
      modifies this
      ensures Valid()
      ensures kind == old(kind) && currentRow == old(currentRow) && currentCell == old(currentCell)
      ensures currentSpan == old(currentSpan) && justData == old(justData)
      ensures old(kind) != Table ==> rows == old(rows) && !raised
      ensures old(kind) == Table ==> rows == PendingRows(old(State()))
      ensures old(kind) == Table ==> (raised <==> !NoPlaceholder(rows))
      ensures old(kind) == Table && !raised ==> result == Some(TableGrid(rows))
      ensures old(kind) == Table && raised ==> result.Some? && |result.value| == MaxLen(rows)
      ensures old(kind) == Para ==> result == Some(TextGrid(old(currentCell).value))
      ensures old(kind) == Unknown && old(justData) != "" ==> result == Some(TextGrid(old(justData)))
      ensures old(kind) == Unknown && old(justData) == "" ==> result == old(result) && strayResults == Some([[]])
      ensures !(old(kind) == Unknown && old(justData) == "") ==> strayResults == old(strayResults)
    {
      raised := false;
      if kind == Table {
        if currentRow.Some? {
          rows := rows + [currentRow.value];
        }
        var grid;
        raised, grid := BuildGrid(rows);
        result := Some(grid);
      } else if kind == Para {
        result := Some(TextGrid(currentCell.value));
      } else {
        if justData != "" {
          result := Some(TextGrid(justData));
        } else {
          strayResults := Some([[]]);
        }
      }
    }
  }

  /**
   * Feeding any callbacks to a fresh parser and closing it: an empty
   * undecided document leaves `result()` as `None`, because the empty-case
   * branch assigns the misspelt `_results`.
   */
  method ParseEvents(evs: seq<Event>) returns (raised: bool, r: Option<Grid>)
    ensures FirstKind(evs) == Unknown && AllData(evs) == "" ==> !raised && r.None?
    ensures FirstKind(evs) == Unknown && AllData(evs) != "" ==> !raised && r == Some(TextGrid(AllData(evs)))
    ensures FirstKind(evs) == Para ==> !raised && r.Some? && |r.value| == 1
    ensures FirstKind(evs) == Table ==> (raised <==> !NoPlaceholder(PendingRows(Run(Init, evs))))
    ensures FirstKind(evs) == Table && !raised ==> r == Some(TableGrid(PendingRows(Run(Init, evs))))
  {
    var p := new Parser();
    p.Feed(evs);
    ghost var fed := p.State();
    assert fed == Run(Init, evs);
    KindOfRun(Init, evs);
    assert fed.kind == FirstKind(evs);
    if FirstKind(evs) == Unknown {
      UnknownCollects(Init, evs);
      assert fed.justData == AllData(evs);
    }
    raised := p.Close();
    r := p.Result();
  }
}

=== FILE: options.dfy ===
/** The optional value shared by the three components: `None` stands for Python's `None` and JavaScript's `null`. */
module Options {

  datatype Option<T> = None | Some(value: T)
}

=== FILE: resultsview.dfy ===
/**
 * The controller of the embedded results panel. It receives envelopes from
 * the host window, keeps the render state and the selection, annotation and
 * focus state derived from them, and posts envelopes back to the host.
 *
 * The page is abstracted away: a rendered result element is a `Node` (an id,
 * whether it is the results container, whether it shows syntax or an image,
 * and its box on the page); the renderer and the exporter are functions
 * given to the controller; `postMessage` appends to `outbox`; the CSS
 * classes the controller toggles on the results container are the four
 * booleans of `Classes`.
 */
module ResultsView {

  import opened Options
  import Addresses

  type Address = seq<string>
  type WindowId = nat

  datatype Box = Box(left: int, top: int, width: int, height: int)

  /**
   * A rendered result element: `isRoot` when its element is the results
   * container itself, `isSyntax`/`isImage` for the `jmv-results-syntax` and
   * `jmv-results-image` classes, `bounds` its page offset and outer size.
   */
  datatype Node = Node(id: nat, isRoot: bool, isSyntax: bool, isImage: bool, bounds: Box)

  /** What the renderer builds: the root item and the items reachable by address. */
  datatype View = View(root: Node, items: map<Address, Node>)

  /** The root element of a definition; `body` stands for the rest of the tree. */
  datatype ResultElement = ResultElement(visible: int, body: string)

  datatype ResultsDefn = ResultsDefn(
    results: ResultElement,
    options: map<string, string>,
    mode: string,
    devMode: bool,
    format: string,
    refs: seq<string>,
    refsMode: string)

  /** `_analysisSelected`: never set, `null`, or a value used for its truthiness. */
  datatype Selection = Undefined | Null | Flag(truthy: bool)

  /** The state classes on the results container. */
  datatype Classes = Classes(editFocus: bool, editState: bool, noAnalysisSelected: bool, analysisSelected: bool)

  const FreshClasses := Classes(false, false, false, false)

  /** The selection overlay's CSS: its box and opacity, each unset until first written. */
  datatype Selector = Selector(box: Option<Box>, opacity: Option<int>)

  /** `active`: `null`, `undefined` (a lookup that found nothing), or an item. */
  datatype Active = Inactive | Missing | At(node: Node)

  /** Whether a handler ran to the end or threw. */
  datatype Outcome = Done | Thrown

  datatype MenuEntry = MenuEntry(kind: string, address: Option<Address>, title: string)

  datatype Content = Content(text: Option<string>, image: Option<string>, html: Option<string>)

  datatype Outgoing =
    | SizeChanged(width: int, height: int)
    | MouseEvent(eventName: string, which: int, pageX: int, pageY: int)
    | GetContentReply(content: Content, address: Address)
    | AnnotationFocus(data: string)
    | AnnotationLostFocus(data: string)
    | AnnotationFormats(data: string)
    | AnnotationChanged(data: string)
    | MenuRequest(eventType: string, entries: seq<MenuEntry>)

  datatype Post = Post(target: WindowId, message: Outgoing)

  datatype MenuAction = MenuAction(kind: string, address: Option<Address>)

  datatype AnnotationAction =
    | EditState(state: bool)
    | EditFocused(state: bool)
    | ToolbarAction(action: string)
    | OtherAnnotationAction(kind: string)

  datatype Incoming =
    | Results(defn: ResultsDefn)
    | RefTableChanged(refs: seq<string>, refsMode: string)
    | Selected(state: Selection)
    /** `hitsBody`: the element at the point is the page body itself. */
    | Click(pageX: int, pageY: int, hitsBody: bool)
    | AddNote(address: Address, text: string)
    | GetContent(address: Address, options: string)
    | Menu(menuAction: MenuAction)
    | Annotation(annotationAction: AnnotationAction)
    | Unrecognised(kind: string)

  datatype Format = TextPlain | ImagePng | TextHtml

  datatype ExportCall = ExportCall(node: nat, format: Format)

  // ---------------------------------------------------------------------
  // Option keys

  /** The option name `getParam` looks up: `'results/' + address.join('/') + '/' + name`. */
  function ParamKey(address: Address, name: string): (key: string)
    ensures |key| >= |"results/"| + 1 + |name|
    ensures key[..|"results/"|] == "results/"
    ensures key[|key| - |name| - 1..] == "/" + name
  {
    "results/" + Addresses.Flatten(address) + "/" + name
  }

  lemma FlattenAppend(a: Address, b: Address)
    requires a != [] && b != []
    ensures Addresses.Flatten(a + b) == Addresses.Flatten(a) + "/" + Addresses.Flatten(b)
    decreases |a|
  {
    if |a| == 1 {
      assert (a + b)[1..] == b;
    } else {
      assert (a + b)[1..] == a[1..] + b;
      FlattenAppend(a[1..], b);
    }
  }

  /**
   * The option key decodes to the path `results`, the address, the name;
   * for the empty address the key has an empty segment (`results//name`),
   * which decoding drops.
   */
  lemma ParamKeyDecodes(address: Address, name: string)
    requires Addresses.WellFormed(address + [name])
    ensures Addresses.Unflatten(ParamKey(address, name)) == Some(["results"] + address + [name])
  {
    assert (address + [name])[|address|] == name;
    if address == [] {
      ParamKeyEmptyAddress(name);
      assert ["results"] + address + [name] == ["results", name];
    } else {
      ParamKeyNonEmptyAddress(address, name);
    }
  }

  lemma ParamKeyNonEmptyAddress(address: Address, name: string)
    requires address != [] && Addresses.WellFormed(address + [name])
    ensures Addresses.Unflatten(ParamKey(address, name)) == Some(["results"] + address + [name])
  {
    var path := ["results"] + address + [name];
    ResultsPrefixWellFormed(address + [name]);
    assert ["results"] + (address + [name]) == path;
    ParamKeyFlattens(address, name);
    Addresses.RoundTrip(path);
  }

  /** Prefixing the plain segment `results` keeps a path well formed. */
  lemma ResultsPrefixWellFormed(a: Address)
    requires Addresses.WellFormed(a)
    ensures Addresses.WellFormed(["results"] + a)
  {
    assert Addresses.Plain("results");
    var p := ["results"] + a;
    forall i | 0 <= i < |p| ensures Addresses.Plain(p[i]) || Addresses.Quoted(p[i]) {
      if i > 0 { assert p[i] == a[i - 1]; }
    }
  }

  /** For a non-empty address the key is the flattened path `results`, address, name. */
  lemma ParamKeyFlattens(address: Address, name: string)
    requires address != []
    ensures ParamKey(address, name) == Addresses.Flatten(["results"] + address + [name])
  {
    FlattenAppend(["results"], address);
    FlattenAppend(["results"] + address, [name]);
    var f := Addresses.Flatten(address);
    assert Addresses.Flatten(["results"]) == "results";
    assert Addresses.Flatten([name]) == name;
    assert "results/" + f + "/" + name == "results" + "/" + f + "/" + name;
  }

  lemma ParamKeyEmptyAddress(name: string)
    requires Addresses.Plain(name) || Addresses.Quoted(name)
    ensures Addresses.Unflatten(ParamKey([], name)) == Some(["results", name])
  {
    var key := ParamKey([], name);
    assert key == "results" + ("/" + ("/" + name));
    assert Addresses.Plain("results");
    Addresses.SegmentToken("results", "/" + ("/" + name));
    Addresses.TokensSlash("/" + name);
    Addresses.TokensSlash(name);
    Addresses.SegmentToken(name, "");
    assert name + "" == name;
    assert Addresses.Tokens(name) == [name] by {
      assert Addresses.Tokens("") == [];
    }
    assert Addresses.Tokens(key) == ["results"] + [name];
    assert ["results"] + [name] == ["results", name];
    assert Addresses.Unflatten(key) == Some(["results", name]);
  }

  // ---------------------------------------------------------------------
  // Class flags

  function Truthy(sel: Selection): bool
  {
    sel.Flag? && sel.truthy
  }

  /** The `selected` branch: `null` marks "no analysis selected", anything else sets `analysis-selected` to its truthiness. */
  function ApplySelection(cls: Classes, sel: Selection): (r: Classes)
    ensures r.noAnalysisSelected <==> sel == Null
    ensures sel == Null ==> r.analysisSelected == cls.analysisSelected
    ensures sel != Null ==> (r.analysisSelected <==> Truthy(sel))
    ensures r.editFocus == cls.editFocus && r.editState == cls.editState
  {
    if sel == Null then cls.(noAnalysisSelected := true)
    else cls.(noAnalysisSelected := false, analysisSelected := Truthy(sel))
  }

  /**
   * `_updateAnnotationStates`: reapply the three flags to the container, which
   * then shows the stored state whatever it held before.
   */
  function ApplyAnnotationStates(cls: Classes, focused: bool, editing: bool, sel: Selection): (r: Classes)
    ensures Reflects(r, focused, editing, sel)
    ensures sel == Null ==> r.analysisSelected == cls.analysisSelected
  {
    ApplySelection(cls.(editFocus := focused, editState := editing), sel)
  }

  /**
   * The classes show the stored state: the edit flags exactly, the tri-state
   * selection as `no-analysis-selected` for `null` and as `analysis-selected`
   * otherwise (a `null` leaves `analysis-selected` as it was).
   */
  predicate Reflects(cls: Classes, focused: bool, editing: bool, sel: Selection)
  {
    && cls.editFocus == focused
    && cls.editState == editing
    && (cls.noAnalysisSelected <==> sel == Null)
    && (sel != Null ==> (cls.analysisSelected <==> Truthy(sel)))
  }

  /** A `selected` message keeps the classes in step with the stored state. */
  lemma SelectionKeepsReflects(cls: Classes, focused: bool, editing: bool, old_sel: Selection, sel: Selection)
    requires Reflects(cls, focused, editing, old_sel)
    ensures Reflects(ApplySelection(cls, sel), focused, editing, sel)
  {
  }

  // ---------------------------------------------------------------------
  // The focus reference counter

  datatype FocusChange = Enter | Leave
  datatype FocusNote = Gained | Lost

  /** One handler run: the new count, the notification posted, whether it threw. */
  datatype FocusStep = FocusStep(count: int, note: Option<FocusNote>, throws: bool)

  /** `annotation-editing`: count up; notify when the count becomes 1. */
  function FocusEnter(count: int): (r: FocusStep)
    ensures r.count == count + 1 && !r.throws
    ensures r.note.Some? <==> r.count == 1
    ensures r.note.Some? ==> r.note.value == Gained
  {
    var c := count + 1;
    FocusStep(c, if c == 1 then Some(Gained) else None, false)
  }

  /** `annotation-lost-focus`: count down; notify at 0; throw below 0 (after the decrement). */
  function FocusLeave(count: int): (r: FocusStep)
    ensures r.count == count - 1
    ensures r.throws <==> count <= 0
    ensures r.note.Some? <==> r.count == 0
    ensures r.note.Some? ==> r.note.value == Lost
  {
    var c := count - 1;
    FocusStep(c, if c == 0 then Some(Lost) else None, c < 0)
  }

  function ApplyFocus(count: int, ch: FocusChange): FocusStep
  {
    match ch
    case Enter => FocusEnter(count)
    case Leave => FocusLeave(count)
  }

  datatype FocusTrace = FocusTrace(count: int, notes: seq<FocusNote>, thrown: bool)

  const FocusStart := FocusTrace(0, [], false)

  /**
   * Runs the handlers over a sequence of changes, stopping at the first
   * throw: it covers the events up to that throw only. The page goes on
   * dispatching later events from the count of -1, which is what
   * `Main.OnAnnotationLostFocus` and `Main.OnAnnotationEditing` model.
   */
  function FocusRun(t: FocusTrace, chs: seq<FocusChange>): FocusTrace
    decreases |chs|
  {
    if chs == [] || t.thrown then t
    else
      var s := ApplyFocus(t.count, chs[0]);
      FocusRun(FocusTrace(s.count, t.notes + (if s.note.Some? then [s.note.value] else []), s.throws), chs[1..])
  }

  /**
   * The host has seen alternating gained/lost notifications, starting with
   * gained, and the last one says whether some region is being edited.
   */
  predicate Balanced(t: FocusTrace)
  {
    && t.count >= 0
    && (forall i :: 0 <= i < |t.notes| ==> t.notes[i] == if i % 2 == 0 then Gained else Lost)
    && (t.count > 0 <==> |t.notes| % 2 == 1)
  }

  /**
   * From a balanced state, every run either stays balanced or throws on a
   * lost-focus at count 0, leaving the count at -1 with nothing posted.
   */
  lemma {:induction false} FocusRunBalanced(t: FocusTrace, chs: seq<FocusChange>)
    requires Balanced(t) && !t.thrown
    ensures !FocusRun(t, chs).thrown ==> Balanced(FocusRun(t, chs))
    ensures FocusRun(t, chs).thrown ==>
      FocusRun(t, chs).count == -1 && Balanced(FocusRun(t, chs).(count := 0))
    decreases |chs|
  {
    if chs != [] {
      var s := ApplyFocus(t.count, chs[0]);
      var next := FocusTrace(s.count, t.notes + (if s.note.Some? then [s.note.value] else []), s.throws);
      if s.throws {
        assert FocusRun(next, chs[1..]) == next;
        assert next.notes == t.notes;
      } else {
        assert Balanced(next) by {
          if s.note.Some? {
            assert |next.notes| == |t.notes| + 1;
            assert next.notes[|t.notes|] == s.note.value;
          }
        }
        FocusRunBalanced(next, chs[1..]);
      }
    }
  }

  /** From the initial count of 0, the host only ever sees gained, lost, gained, lost, ... */
  lemma FocusNotesAlternate(chs: seq<FocusChange>)
    ensures !FocusRun(FocusStart, chs).thrown ==> Balanced(FocusRun(FocusStart, chs))
  {
    FocusRunBalanced(FocusStart, chs);
  }

  /** Two nested editing regions produce one gained and one lost notification. */
  lemma FocusNestedExample()
    ensures FocusRun(FocusStart, [Enter, Enter, Leave, Leave]) == FocusTrace(0, [Gained, Lost], false)
  {
  }

  /** One lost-focus too many throws, with the count left at -1. */
  lemma FocusUnderflowExample()
    ensures FocusRun(FocusStart, [Enter, Leave, Leave]) == FocusTrace(-1, [Gained, Lost], true)
  {
  }

  // ---------------------------------------------------------------------
  // Menu selection and the selection overlay

  /** The overlay's box: exactly the root's box, or a non-root box widened by 12 on each side. */
  function SelectorBox(n: Node): (r: Box)
    ensures n.isRoot ==> r == n.bounds
    ensures !n.isRoot ==> r == Box(n.bounds.left - 12, n.bounds.top, n.bounds.width + 24, n.bounds.height)
  {
    var padLR := if n.isRoot then 0 else 12;
    var padTB := 0;
    Box(n.bounds.left - padLR, n.bounds.top - padTB, n.bounds.width + 2 * padLR, n.bounds.height + 2 * padTB)
  }

  /** The overlay covers the node, keeps its vertical extent, and is centred on it horizontally. */
  lemma SelectorSurroundsNode(n: Node)
    ensures SelectorBox(n).top == n.bounds.top && SelectorBox(n).height == n.bounds.height
    ensures SelectorBox(n).left <= n.bounds.left
    ensures SelectorBox(n).left + SelectorBox(n).width >= n.bounds.left + n.bounds.width
    ensures n.bounds.left - SelectorBox(n).left
      == (SelectorBox(n).left + SelectorBox(n).width) - (n.bounds.left + n.bounds.width)
  {
  }

  /** An address as the menu resolves it: `[]` is the root, anything else goes through the lookup. */
  function Resolve(view: View, address: Address): (r: Option<Node>)
    ensures address == [] ==> r == Some(view.root)
    ensures address != [] ==> (r.Some? <==> address in view.items)
  {
    if address == [] then Some(view.root)
    else if address in view.items then Some(view.items[address])
    else None
  }

  datatype MenuState = MenuState(active: Active, selector: Option<Selector>)

  /** Hide the overlay and forget the active item, when there is one. */
  function ClearActive(st: MenuState): (r: MenuState)
    ensures r.active == Inactive
    ensures st.active != Inactive && st.selector.Some? ==> r.selector == Some(st.selector.value.(opacity := Some(0)))
    ensures st.active == Inactive ==> r == st
  {
    if st.active != Inactive && st.selector.Some? then
      MenuState(Inactive, Some(st.selector.value.(opacity := Some(0))))
    else st.(active := Inactive)
  }

  /**
   * `_menuEvent`. First the current selection is cleared; a `null` address
   * stops there. `[]` selects the results root, any other address the
   * looked-up item (`undefined` when there is none); only `activated` shows
   * the overlay, and it throws when there is no item to show it on.
   */
  function MenuStep(view: Option<View>, st: MenuState, ev: MenuAction): (r: (MenuState, Outcome))
    ensures ev.address.None? ==> r == (ClearActive(st), Done)
    ensures ev.kind != "activated" ==> r.0.selector == ClearActive(st).selector
    ensures ev.address.Some? && view.Some? && ev.kind == "activated" && Resolve(view.value, ev.address.value).Some? ==>
      var n := Resolve(view.value, ev.address.value).value;
      r == (MenuState(At(n), Some(Selector(Some(SelectorBox(n)), Some(1)))), Done)
    ensures ev.address.Some? && ev.address.value == [] ==>
      r.0.active == (if view.Some? then At(view.value.root) else Inactive)
    ensures ev.address.Some? && ev.address.value != [] && view.Some? ==>
      r.0.active == (match Resolve(view.value, ev.address.value) case Some(n) => At(n) case None => Missing)
    ensures r.1 == Thrown ==> r.0.selector == ClearActive(st).selector
    ensures r.1 == Thrown <==>
      ev.address.Some? &&
      ((ev.address.value != [] && view.None?)
       || (ev.kind == "activated" && (view.None? || Resolve(view.value, ev.address.value).None?)))
  {
    var cleared := ClearActive(st);
    if ev.address.None? then (cleared, Done)
    else
      var address := ev.address.value;
      if address != [] && view.None? then (cleared, Thrown)
      else
        var active :=
          if view.None? then Inactive
          else match Resolve(view.value, address) case Some(n) => At(n) case None => Missing;
        if ev.kind == "activated" then
          match active
          case At(n) => (MenuState(active, Some(Selector(Some(SelectorBox(n)), Some(1)))), Done)
          case _ => (cleared.(active := active), Thrown)
        else (cleared.(active := active), Done)
  }

  /** Activating the empty address puts the overlay exactly over the results container. */
  lemma MenuRootActivation(view: View, st: MenuState)
    requires view.root.isRoot
    ensures MenuStep(Some(view), st, MenuAction("activated", Some([]))).0.selector
      == Some(Selector(Some(view.root.bounds), Some(1)))
  {
  }

  // ---------------------------------------------------------------------
  // Export flags

  /** The representations a `getcontent` request asks for. */
  datatype Flags = Flags(text: bool, image: bool, html: bool)

  /**
   * What `getcontent` asks of a node: html in rich mode unless the node is
   * syntax, the image instead of the text for an image node.
   */
  function Requested(mode: string, node: Node): Flags
  {
    Flags(!node.isImage, node.isImage, mode == "rich" && !node.isSyntax)
  }

  /** An image node in rich mode is exported as an image and as html, never as text. */
  lemma ImageNodeInRichMode(node: Node)
    requires node.isImage && !node.isSyntax
    ensures ExportCalls(node, Requested("rich", node)) == [ExportCall(node.id, ImagePng), ExportCall(node.id, TextHtml)]
  {
  }

  /** The exports the flags call for, in the order they run. */
  function ExportCalls(node: Node, flags: Flags): (r: seq<ExportCall>)
    ensures |r| <= 3
    ensures forall i, j :: 0 <= i < j < |r| ==> FormatRank(r[i].format) < FormatRank(r[j].format)
    ensures forall i :: 0 <= i < |r| ==> r[i].node == node.id
    ensures ExportCall(node.id, TextPlain) in r <==> flags.text
    ensures ExportCall(node.id, ImagePng) in r <==> flags.image
    ensures ExportCall(node.id, TextHtml) in r <==> flags.html
  {
    (if flags.text then [ExportCall(node.id, TextPlain)] else [])
    + (if flags.image then [ExportCall(node.id, ImagePng)] else [])
    + (if flags.html then [ExportCall(node.id, TextHtml)] else [])
  }

  function FormatRank(f: Format): nat
  {
    match f
    case TextPlain => 0
    case ImagePng => 1
    case TextHtml => 2
  }

  // ---------------------------------------------------------------------
  // The controller

  /** The controller's mutable fields as one value. */
  datatype Panel = Panel(
    mainWindow: Option<WindowId>,
    resultsDefn: Option<ResultsDefn>,
    view: Option<View>,
    classes: Option<Classes>,
    selector: Option<Selector>,
    refTable: Option<(seq<string>, string)>,
    active: Active,
    focus: int,
    annotationFocused: bool,
    annotationState: bool,
    analysisSelected: Selection,
    outbox: seq<Post>,
    exports: seq<ExportCall>)

  class Main {
    /** The panel's own window: messages from it are ignored. */
    const window: WindowId
    /** `createItem`: the renderer. */
    const createItem: ResultsDefn -> View
    /** `formatIO.exportElem`; the empty string stands for a falsy export. */
    const exportElem: (Node, Format, string) -> string

    var mainWindow: Option<WindowId>
    var resultsDefn: Option<ResultsDefn>
    var view: Option<View>
    var classes: Option<Classes>
    var selector: Option<Selector>
    /** The reference table's last `setup(refs, refsMode)`. */
    var refTable: Option<(seq<string>, string)>
    var active: Active
    var focus: int
    var annotationFocused: bool
    var annotationState: bool
    var analysisSelected: Selection
    /** Every `postMessage`, in order. */
    var outbox: seq<Post>
    /** Every `exportElem` call, in order. */
    var exports: seq<ExportCall>

    /** Every mutable field at once, for stating what a handler leaves alone. */
    function Snapshot(): Panel
      reads this
    {
      Panel(mainWindow, resultsDefn, view, classes, selector, refTable, active, focus,
            annotationFocused, annotationState, analysisSelected, outbox, exports)
    }

    predicate Rendered()
      reads this
    {
      view.Some?
    }

    predicate Valid()
      reads this
    {
      && (view.Some? <==> classes.Some?)
      && (view.Some? ==> resultsDefn.Some? && mainWindow.Some? && selector.Some? && refTable.Some?)
      && (active != Inactive ==> view.Some?)
      && (classes.Some? ==> Reflects(classes.value, annotationFocused, annotationState, analysisSelected))
    }

    constructor (window: WindowId, createItem: ResultsDefn -> View, exportElem: (Node, Format, string) -> string)
      ensures Valid() && !Rendered()
      ensures this.window == window && this.createItem == createItem && this.exportElem == exportElem
      ensures mainWindow.None? && resultsDefn.None? && active == Inactive && focus == 0
      ensures !annotationFocused && !annotationState && analysisSelected == Undefined
      ensures outbox == [] && exports == []
    {
      this.window := window;
      this.createItem := createItem;
      this.exportElem := exportElem;
      mainWindow, resultsDefn, view, classes, selector, refTable := None, None, None, None, None, None;
      active, focus := Inactive, 0;
      annotationFocused, annotationState, analysisSelected := false, false, Undefined;
      outbox, exports := [], [];
    }

    /** `getParam`: the option stored under the key, `None` for `undefined`. */
    function GetParam(address: Address, name: string): (r: Option<string>)
      reads this
      requires resultsDefn.Some?
      ensures r.Some? <==> ParamKey(address, name) in resultsDefn.value.options
      ensures r.Some? ==> r.value == resultsDefn.value.options[ParamKey(address, name)]
    {
      var key := ParamKey(address, name);
      if key in resultsDefn.value.options then Some(resultsDefn.value.options[key]) else None
    }

    /** `_reallyNotifyResize`: report the container's size plus 40 by 25. */
    method ReallyNotifyResize(width: int, height: int)
      requires Valid() && Rendered()
      modifies this`outbox
      ensures outbox == old(outbox) + [Post(mainWindow.value, SizeChanged(width + 40, height + 25))]
    {
      outbox := outbox + [Post(mainWindow.value, SizeChanged(width + 40, height + 25))];
    }

    /** `_mouseDown`, `_mouseUp`, `_mouseMove`: forwarded only once there is a host to reply to. */
    method OnMouse(eventName: string, which: int, pageX: int, pageY: int)
      requires Valid()
      modifies this`outbox
      ensures mainWindow.None? ==> outbox == old(outbox)
      ensures mainWindow.Some? ==>
        outbox == old(outbox) + [Post(mainWindow.value, MouseEvent(eventName, which, pageX, pageY))]
    {
      if mainWindow.Some? {
        outbox := outbox + [Post(mainWindow.value, MouseEvent(eventName, which, pageX, pageY))];
      }
    }

    /** The `annotation-editing` handler installed by `_render`. */
    method OnAnnotationEditing(data: string)
      requires Valid() && Rendered()
      modifies this`focus, this`outbox
      ensures Valid()
      ensures focus == FocusEnter(old(focus)).count
      ensures outbox == old(outbox) + (if FocusEnter(old(focus)).note.Some? then [Post(mainWindow.value, AnnotationFocus(data))] else [])
    {
      focus := focus + 1;
      if focus == 1 {
        outbox := outbox + [Post(mainWindow.value, AnnotationFocus(data))];
      }
    }

    /** The `annotation-lost-focus` handler installed by `_render`. */
    method OnAnnotationLostFocus(data: string) returns (outcome: Outcome)
      requires Valid() && Rendered()
      modifies this`focus, this`outbox
      ensures Valid()
      ensures focus == FocusLeave(old(focus)).count
      ensures outbox == old(outbox) + (if FocusLeave(old(focus)).note.Some? then [Post(mainWindow.value, AnnotationLostFocus(data))] else [])
      ensures outcome == Thrown <==> FocusLeave(old(focus)).throws
    {
      outcome := Done;
      focus := focus - 1;
      if focus == 0 {
        outbox := outbox + [Post(mainWindow.value, AnnotationLostFocus(data))];
      } else if focus < 0 {
        outcome := Thrown;
      }
    }

    /** The `annotation-formats` handler installed by `_render`. */
    method OnAnnotationFormats(data: string)
      requires Valid() && Rendered()
      modifies this`outbox
      ensures outbox == old(outbox) + [Post(mainWindow.value, AnnotationFormats(data))]
    {
      outbox := outbox + [Post(mainWindow.value, AnnotationFormats(data))];
    }

    /** The `annotation-changed` handler installed by `_render`. */
    method OnAnnotationChanged(data: string)
      requires Valid() && Rendered()
      modifies this`outbox
      ensures outbox == old(outbox) + [Post(mainWindow.value, AnnotationChanged(data))]
    {
      outbox := outbox + [Post(mainWindow.value, AnnotationChanged(data))];
    }

    /**
     * `_render`: a fresh reference table, a fresh results container showing
     * the stored flags, the rendered items and a fresh overlay. The focus
     * count and the active item are kept.
     */
    method Render()
      requires Valid() && resultsDefn.Some? && mainWindow.Some?
      modifies this`view, this`classes, this`selector, this`refTable
      ensures Valid() && Rendered()
      ensures view == Some(createItem(resultsDefn.value))
      ensures classes == Some(ApplyAnnotationStates(FreshClasses, annotationFocused, annotationState, analysisSelected))
      ensures selector == Some(Selector(None, None))
      ensures refTable == Some((resultsDefn.value.refs, resultsDefn.value.refsMode))
    {
      refTable := Some((resultsDefn.value.refs, resultsDefn.value.refsMode));
      classes := Some(ApplyAnnotationStates(FreshClasses, annotationFocused, annotationState, analysisSelected));
      view := Some(createItem(resultsDefn.value));
      selector := Some(Selector(None, None));
    }

    /** `_annotationEvent`: store an edit flag and mirror it on the container. */
    method HandleAnnotationEvent(ev: AnnotationAction)
      requires Valid()
      modifies this`annotationState, this`annotationFocused, this`classes
      ensures Valid()
      ensures ev.EditState? ==> Snapshot() == old(Snapshot()).(
        annotationState := ev.state,
        classes := if old(classes).Some? then Some(old(classes).value.(editState := ev.state)) else None)
      ensures ev.EditFocused? ==> Snapshot() == old(Snapshot()).(
        annotationFocused := ev.state,
        classes := if old(classes).Some? then Some(old(classes).value.(editFocus := ev.state)) else None)
      ensures !ev.EditState? && !ev.EditFocused? ==> Snapshot() == old(Snapshot())
    {
      match ev {
        case EditState(state) =>
          annotationState := state;
          if classes.Some? {
            classes := Some(classes.value.(editState := state));
          }
        case EditFocused(state) =>
          annotationFocused := state;
          if classes.Some? {
            classes := Some(classes.value.(editFocus := state));
          }
        case ToolbarAction(_) =>
        case OtherAnnotationAction(_) =>
      }
    }

    /** The start of `_menuEvent`: hide the overlay and forget the active item, if there is one. */
    method ClearSelection()
      requires Valid()
      modifies this`active, this`selector
      ensures Valid()
      ensures MenuState(active, selector) == ClearActive(old(MenuState(active, selector)))
      ensures Snapshot() == old(Snapshot()).(active := active, selector := selector)
    {
      if active != Inactive {
        selector := Some(selector.value.(opacity := Some(0)));
        active := Inactive;
      }
    }

    /** `_menuEvent`. */
    method HandleMenuEvent(ev: MenuAction) returns (outcome: Outcome)
      requires Valid()
      modifies this`active, this`selector
      ensures Valid()
      ensures (MenuState(active, selector), outcome) == MenuStep(view, old(MenuState(active, selector)), ev)
      ensures Snapshot() == old(Snapshot()).(active := active, selector := selector)
    {
      ClearSelection();
      if ev.address.None? {
        return Done;
      }
      var address := ev.address.value;
      if address == [] {
        active := if view.Some? then At(view.value.root) else Inactive;
      } else {
        if view.None? {
          return Thrown;
        }
        active := match Resolve(view.value, address) case Some(n) => At(n) case None => Missing;
      }
      outcome := Done;
      if ev.kind == "activated" {
        if active.At? {
          selector := Some(Selector(Some(SelectorBox(active.node)), Some(1)));
        } else {
          outcome := Thrown;
        }
      }
    }

    /**
     * `_sendMenuRequest`: the first entry becomes an `Analysis` entry (in
     * place), the request goes to the host, then the last entry's address is
     * activated locally.
     */
    method SendMenuRequest(eventType: string, entries: array<MenuEntry>) returns (outcome: Outcome)
      requires Valid() && Rendered()
      modifies this`outbox, this`active, this`selector, entries
      ensures Valid()
      ensures entries.Length == 0 ==>
        outcome == Thrown && Snapshot() == old(Snapshot()) && entries[..] == old(entries[..])
      ensures entries.Length > 0 ==>
        && entries[0] == old(entries[0]).(kind := "Analysis")
        && entries[1..] == old(entries[1..])
        && outbox == old(outbox) + [Post(mainWindow.value, MenuRequest(eventType, entries[..]))]
        && (MenuState(active, selector), outcome)
           == MenuStep(view, old(MenuState(active, selector)), MenuAction("activated", entries[entries.Length - 1].address))
    {
      if entries.Length == 0 {
        return Thrown;
      }
      entries[0] := entries[0].(kind := "Analysis");
      outbox := outbox + [Post(mainWindow.value, MenuRequest(eventType, entries[..]))];
      var lastEntry := entries[entries.Length - 1];
      outcome := HandleMenuEvent(MenuAction("activated", lastEntry.address));
    }

    /**
     * The flags computed at the start of the `getcontent` branch: html when
     * the mode is rich and the node is not syntax, text unless the node is
     * an image, image when it is one.
     */
    method ContentFlags(mode: string, node: Node) returns (flags: Flags)
      ensures flags.html <==> mode == "rich" && !node.isSyntax
      ensures flags.text <==> !node.isImage
      ensures flags.image <==> node.isImage
      ensures flags == Requested(mode, node)
    {
      var incHtml := mode == "rich";
      var incText := true;
      var incImage := false;
      if node.isSyntax {
        incHtml := false;
      }
      if node.isImage {
        incText := false;
        incImage := true;
      }
      flags := Flags(incText, incImage, incHtml);
    }

    /** The reply content: a key for each requested export whose result is truthy. */
    function ContentOf(node: Node, flags: Flags, options: string): (c: Content)
      ensures c.text.Some? <==> flags.text && exportElem(node, TextPlain, options) != ""
      ensures c.image.Some? <==> flags.image && exportElem(node, ImagePng, options) != ""
      ensures c.html.Some? <==> flags.html && exportElem(node, TextHtml, options) != ""
      ensures c.text.Some? ==> c.text.value == exportElem(node, TextPlain, options)
      ensures c.image.Some? ==> c.image.value == exportElem(node, ImagePng, options)
      ensures c.html.Some? ==> c.html.value == exportElem(node, TextHtml, options)
    {
      var text := exportElem(node, TextPlain, options);
      var image := exportElem(node, ImagePng, options);
      var html := exportElem(node, TextHtml, options);
      Content(
        if flags.text && text != "" then Some(text) else None,
        if flags.image && image != "" then Some(image) else None,
        if flags.html && html != "" then Some(html) else None)
    }

    /**
     * The promise chain of `getcontent`, run step by step: text, then image,
     * then html, each only when requested; `content` gets a key only for a
     * truthy result.
     */
    method ExportContent(node: Node, flags: Flags, options: string) returns (content: Content, calls: seq<ExportCall>)
      ensures calls == ExportCalls(node, flags)
      ensures content == ContentOf(node, flags, options)
    {
      content := Content(None, None, None);
      calls := [];
      var text := "";
      if flags.text {
        calls := calls + [ExportCall(node.id, TextPlain)];
        text := exportElem(node, TextPlain, options);
      }
      if text != "" {
        content := content.(text := Some(text));
      }
      var image := "";
      if flags.image {
        calls := calls + [ExportCall(node.id, ImagePng)];
        image := exportElem(node, ImagePng, options);
      }
      if image != "" {
        content := content.(image := Some(image));
      }
      var html := "";
      if flags.html {
        calls := calls + [ExportCall(node.id, TextHtml)];
        html := exportElem(node, TextHtml, options);
      }
      if html != "" {
        content := content.(html := Some(html));
      }
    }

    /**
     * The `getcontent` branch: resolve the address, export, and post one
     * reply echoing the address. Before the first render, or for an address
     * that resolves to nothing, it throws and posts nothing.
     */
    method HandleGetContent(address: Address, options: string) returns (outcome: Outcome)
      requires Valid()
      modifies this`outbox, this`exports
      ensures Valid()
      ensures outcome == Thrown <==> view.None? || Resolve(view.value, address).None?
      ensures outcome == Thrown ==> Snapshot() == old(Snapshot())
      ensures outcome == Done ==>
        var node := Resolve(view.value, address).value;
        var flags := Requested(resultsDefn.value.mode, node);
        Snapshot() == old(Snapshot()).(
          exports := old(exports) + ExportCalls(node, flags),
          outbox := old(outbox) + [Post(mainWindow.value, GetContentReply(ContentOf(node, flags, options), address))])
    {
      if view.None? {
        return Thrown;
      }
      var found := Resolve(view.value, address);
      if found.None? {
        return Thrown;
      }
      var node := found.value;
      var flags := ContentFlags(resultsDefn.value.mode, node);
      var content, calls := ExportContent(node, flags, options);
      exports := exports + calls;
      outbox := outbox + [Post(mainWindow.value, GetContentReply(content, address))];
      outcome := Done;
    }

    /** The `results` branch: store the definition with the root forced visible, then render. */
    method ReceiveResults(defn: ResultsDefn)
      requires Valid() && mainWindow.Some?
      modifies this`resultsDefn, this`view, this`classes, this`selector, this`refTable
      ensures Valid() && Rendered()
      ensures resultsDefn == Some(defn.(results := defn.results.(visible := 2)))
      ensures view == Some(createItem(resultsDefn.value))
      ensures classes == Some(ApplyAnnotationStates(FreshClasses, annotationFocused, annotationState, analysisSelected))
      ensures selector == Some(Selector(None, None))
      ensures refTable == Some((resultsDefn.value.refs, resultsDefn.value.refsMode))
      ensures Snapshot() == old(Snapshot()).(resultsDefn := resultsDefn, view := view, classes := classes,
                                             selector := selector, refTable := refTable)
    {
      resultsDefn := Some(defn.(results := defn.results.(visible := 2)));
      Render();
    }

    /** The `selected` branch: store the tri-state and show it on the container, if there is one. */
    method ReceiveSelected(state: Selection)
      requires Valid()
      modifies this`analysisSelected, this`classes
      ensures Valid()
      ensures analysisSelected == state
      ensures classes == (if old(classes).Some? then Some(ApplySelection(old(classes).value, state)) else None)
      ensures Snapshot() == old(Snapshot()).(analysisSelected := analysisSelected, classes := classes)
    {
      if classes.Some? {
        SelectionKeepsReflects(classes.value, annotationFocused, annotationState, analysisSelected, state);
        classes := Some(ApplySelection(classes.value, state));
      }
      analysisSelected := state;
    }

    /** The `reftablechanged` branch: set up the reference table again, if there is one. */
    method ReceiveRefTable(refs: seq<string>, refsMode: string)
      requires Valid()
      modifies this`refTable
      ensures Valid()
      ensures Snapshot() == old(Snapshot()).(refTable := if old(refTable).Some? then Some((refs, refsMode)) else None)
    {
      if refTable.Some? {
        refTable := Some((refs, refsMode));
      }
    }

    /**
     * The `click` branch: a point on the page body is redirected to the
     * results container, which does not exist before the first render, so
     * the lookup throws. The `contextmenu` event it then triggers goes to
     * handlers of the rendered items, which are not part of this model.
     */
    method ReceiveClick(hitsBody: bool) returns (outcome: Outcome)
      requires Valid()
      ensures outcome == Thrown <==> hitsBody && classes.None?
    {
      outcome := if hitsBody && classes.None? then Thrown else Done;
    }

    /** `_messageEvent`: the entry point for every envelope from the host. */
    method HandleMessage(source: WindowId, msg: Incoming) returns (outcome: Outcome)
      requires Valid()
      modifies this`mainWindow, this`resultsDefn, this`view, this`classes, this`selector, this`refTable
      modifies this`active, this`annotationFocused, this`annotationState, this`analysisSelected
      modifies this`outbox, this`exports
      ensures Valid()
      ensures source == window ==> outcome == Done && Snapshot() == old(Snapshot())
      ensures source != window ==>
        var received := old(Snapshot()).(mainWindow := Some(source));
        match msg
        case Results(d) =>
          var defn := d.(results := d.results.(visible := 2));
          && outcome == Done
          && Snapshot() == received.(
               resultsDefn := Some(defn),
               view := Some(createItem(defn)),
               classes := Some(ApplyAnnotationStates(FreshClasses, received.annotationFocused,
                                                     received.annotationState, received.analysisSelected)),
               selector := Some(Selector(None, None)),
               refTable := Some((defn.refs, defn.refsMode)))
        case RefTableChanged(refs, refsMode) =>
          && outcome == Done
          && Snapshot() == received.(refTable := if received.refTable.Some? then Some((refs, refsMode)) else None)
        case Selected(state) =>
          && outcome == Done
          && Snapshot() == received.(
               analysisSelected := state,
               classes := if received.classes.Some? then Some(ApplySelection(received.classes.value, state)) else None)
        case Click(_, _, hitsBody) =>
          && Snapshot() == received
          && (outcome == Thrown <==> hitsBody && received.classes.None?)
        case AddNote(_, _) =>
          outcome == Done && Snapshot() == received
        case GetContent(address, options) =>
          && (outcome == Thrown <==> received.view.None? || Resolve(received.view.value, address).None?)
          && (outcome == Thrown ==> Snapshot() == received)
          && (outcome == Done ==>
                var node := Resolve(received.view.value, address).value;
                var flags := Requested(received.resultsDefn.value.mode, node);
                Snapshot() == received.(
                  exports := received.exports + ExportCalls(node, flags),
                  outbox := received.outbox + [Post(source, GetContentReply(ContentOf(node, flags, options), address))]))
        case Menu(action) =>
          var (st, out) := MenuStep(received.view, MenuState(received.active, received.selector), action);
          outcome == out && Snapshot() == received.(active := st.active, selector := st.selector)
        case Annotation(ev) =>
          && outcome == Done
          && Snapshot() == (match ev
             case EditState(state) => received.(
               annotationState := state,
               classes := if received.classes.Some? then Some(received.classes.value.(editState := state)) else None)
             case EditFocused(state) => received.(
               annotationFocused := state,
               classes := if received.classes.Some? then Some(received.classes.value.(editFocus := state)) else None)
             case _ => received)
        case Unrecognised(_) =>
          outcome == Done && Snapshot() == received
    {
      outcome := Done;
      if source == window {
        return;
      }
      mainWindow := Some(source);
      ghost var received := Snapshot();
      assert received == old(Snapshot()).(mainWindow := Some(source));
      match msg {
        case Results(defn) =>
          ReceiveResults(defn);
        case RefTableChanged(refs, refsMode) =>
          ReceiveRefTable(refs, refsMode);
        case Selected(state) =>
          ReceiveSelected(state);
        case Click(_, _, hitsBody) =>
          outcome := ReceiveClick(hitsBody);
        case AddNote(_, _) =>
        case GetContent(address, options) =>
          outcome := HandleGetContent(address, options);
        case Menu(action) =>
          outcome := HandleMenuEvent(action);
        case Annotation(action) =>
          HandleAnnotationEvent(action);
        case Unrecognised(_) =>
      }
    }
  }
}
